=== FILE: README.md ===
# ArXiv fetcher text-processing core in Dafny

This project models the pure core of a small command-line tool. The tool
fetches arXiv papers and, for each paper, prints:

- its title and authors;
- the ten most frequent content words of its summary;
- the subject-verb-object (SVO) triples a dependency parser finds in the summary.

The tool also filters papers by author, searches them by title, and ranks
them by how often a keyword occurs in the summary. A second format prints,
for each paper, only the objects of its SVO triples.

The repository holds three near-identical scripts:

- `arxiv_fetcher.py` is the full tool;
- `arxiv_fetcherz.py` repeats its text functions (lines 55-114);
- `af.py` prints the object-only format (lines 54-96).

One model covers all three. The modules follow the program's structure:

| module | file | what it models |
|---|---|---|
| `Seqs` | seqs.dfy | filtering a list; distinct elements in first-occurrence order, which is the key order of a Python `Counter`; printing one block per element, one after another |
| `Text` | text.dfy | the `str` operations used: ASCII `lower`, `join`, `in`, non-overlapping `count`, `str(n)`, `"=" * 50`; the program never calls `split`, and `Text.Split` exists only so the round-trip lemmas can read joined text back |
| `StableSort` | stable_sort.dfy | `sorted(..., key=..., reverse=True)` as a stable descending order of positions, and the proof that this order is unique |
| `Options` | options.dfy | collecting the present values of a list of optional values |
| `Tokens` | tokens.dfy | the parsed document: tokens with text, alphabetic and stopword flags, dependency label and head index; `lefts` and `rights` |
| `Svo` | svo.dfy | `extract_svo` and `emphasize_keywords` |
| `Keywords` | keywords.dfy | `preprocess_text`, and `extract_keywords`, which is `Counter(...).most_common(top_n)` |
| `Papers` | papers.dfy | `filter_papers_by_author`, `search_papers_by_title`, `rank_papers_by_keyword` |
| `Render` | render.dfy | the lines `summarize_papers` prints, in both formats; the program never reads its output back, and `ParseKeywordLine`, `ParseEntry` and `StripAffixes` exist only so the round-trip lemmas can read printed keyword lines back |

The dependency parser is not modelled. A parsed text is a `Doc`, and where
the source parses a string, the model takes the parser as a function
parameter `parse: string -> Doc`. Per paper, `summarize_papers` calls the
parser three times. It parses the summary twice: in `preprocess_text` and
again in `extract_svo`. It also parses the joined kept words once, in
`extract_keywords`. Because `parse` is a function, it gives the same `Doc`
for the same text. So the model parses the summary once and uses that `Doc`
for both `PreprocessText` and `ExtractSvo`, and parses the preprocessed text
separately for the keyword counts.

An empty author name is not special. `filter_papers_by_author` compares
lower-cased names with `in` over a generator, so an empty name selects every
paper that lists an empty author name (`Papers.FilterByEmptyAuthor`).

## Model

| member | source | states |
|---|---|---|
| Text.ToLower | arxiv_fetcher.py:122 | lower-casing keeps the length, leaves no upper-case ASCII letter, and changes only upper-case ASCII letters, each to its lower-case letter |
| Text.ToLowerIdempotent | arxiv_fetcher.py:128 | lower-casing an already lower-cased string changes nothing |
| Text.Join | arxiv_fetcher.py:62 | `sep.join(parts)` is empty for no parts, starts with the first part, and is as long as the parts plus one separator between each two neighbours |
| Text.JoinLayout | arxiv_fetcher.py:62 | in `sep.join(parts)` part `k` occurs right after the `k` earlier parts and their `k` separators, and every part but the last is followed directly by `sep` |
| Text.JoinSplit | arxiv_fetcher.py:62 | reading aid, not a program operation: joining the pieces of a split with the same one-character separator rebuilds the string |
| Text.SplitJoin | arxiv_fetcher.py:62 | reading aid, not a program operation: splitting a non-empty list of parts, joined by a separator that none of them holds, gives back exactly those parts |
| Text.Contains | arxiv_fetcher.py:128 | `sub in s` holds when `sub` is a prefix of `s`, and only when `sub` is no longer than `s` |
| Text.ContainsOccurrence | arxiv_fetcher.py:128 | when `sub in s` holds, `sub` occurs at an index of `s` |
| Text.OccurrenceContains | arxiv_fetcher.py:128 | an occurrence of `sub` at any index of `s` makes `sub in s` hold |
| Text.ContainsIffOccurs | arxiv_fetcher.py:128 | `sub in s` holds exactly when `sub` occurs at some index of `s` |
| Text.ShortDoesNotContain | arxiv_fetcher.py:128 | a string shorter than the keyword never contains it |
| Text.Occurrences | arxiv_fetcher.py:135 | the occurrences `str.count` counts are occurrences of the needle, left to right, none overlapping the next |
| Text.CountOccurrences | arxiv_fetcher.py:134-135 | `str.count`: the empty needle counts length plus one; otherwise the count is the number of a list of non-overlapping occurrences, they fit in the string, and the count is positive exactly when the needle occurs |
| Text.CountIsMaximal | arxiv_fetcher.py:135 | no list of non-overlapping occurrences of a non-empty needle is longer than `str.count`, so the count is the largest number of non-overlapping occurrences |
| Text.NatToString | arxiv_fetcher.py:100 | a count is printed as a non-empty run of decimal digits with no leading zero |
| Text.ParseNatToString | arxiv_fetcher.py:100 | reading the printed digits back as a number gives the count |
| Text.Repeat | arxiv_fetcher.py:105 | `"=" * n` has length `n` and holds only `=` |
| Seqs.Filter | arxiv_fetcher.py:122 | a list comprehension with a condition keeps a subsequence whose elements are exactly the input elements that pass, each as often as in the input |
| Seqs.FilterKeepsAll | arxiv_fetcher.py:128 | a filter that every element passes keeps the whole list |
| Seqs.Dedup | arxiv_fetcher.py:70 | a Counter's keys are distinct and are exactly the elements of its input |
| Seqs.DedupInFirstOccurrenceOrder | arxiv_fetcher.py:70 | a Counter's keys stand in the order of their first occurrence in the input |
| StableSort.RankOrder | arxiv_fetcher.py:137 | the sorted positions list every position once, larger keys first, equal keys in input order |
| StableSort.RankOrderIsTheStableSort | arxiv_fetcher.py:137 | any listing of the positions that is stable and descending is the sorted one, so the sort is determined |
| StableSort.ApplyStableDescending | arxiv_fetcher.py:137 | reading a list through a stable descending order keeps every element as often as it occurs |
| Tokens.Lefts | arxiv_fetcher.py:81 | `token.lefts` are exactly the children before the token, in increasing position |
| Tokens.Rights | arxiv_fetcher.py:82 | `token.rights` are exactly the children after the token, in increasing position |
| Svo.WithDep | arxiv_fetcher.py:81-82 | selecting by dependency label keeps exactly the listed tokens whose label is in the set |
| Svo.WithDepAscending | arxiv_fetcher.py:81-82 | selecting by label keeps increasing token positions increasing |
| Svo.SubjectCandidates | arxiv_fetcher.py:81 | the subject-labelled left children of a token are exactly its subjects, and the first of them is the earliest subject |
| Svo.ObjectCandidates | arxiv_fetcher.py:82 | the object-labelled right children of a token are exactly its objects, and the first of them is the earliest object |
| Svo.SvoAt | arxiv_fetcher.py:79-84 | only a ROOT token contributes a triple, and the triple's verb is that token's text |
| Svo.SvoAtSpec | arxiv_fetcher.py:79-84 | a token yields a triple exactly when it is a ROOT with a subject on its left and an object on its right; the triple is the earliest subject, the root and the earliest object |
| Svo.Contributors | arxiv_fetcher.py:79-84 | the tokens that yield a triple are exactly the ROOTs with a subject and an object, in increasing position |
| Svo.ExtractedTriples | arxiv_fetcher.py:78-85 | the collected triples line up one for one with the contributing ROOTs, in token order |
| Svo.ExtractedBound | arxiv_fetcher.py:73-85 | there are never more triples than ROOT tokens |
| Svo.ExtractSvo | arxiv_fetcher.py:73-85 | `extract_svo` returns one triple per contributing ROOT, in token order, and no more triples than ROOTs |
| Svo.Emphasize | af.py:68-76 | one word per triple, its object, in the triples' order |
| Svo.EmphasizeExtract | af.py:68-76 | emphasizing the extracted triples lists, per contributing ROOT in token order, the text of its earliest object |
| Svo.SentenceRoot | arxiv_fetcher.py:79-84 | in "subject verb modifier object ." the root yields (subject, verb, object), whatever the words are |
| Svo.ExampleSentence | arxiv_fetcher.py:73-85 | that sentence yields exactly one triple |
| Svo.TwoSubjectsRoot | arxiv_fetcher.py:81-84 | with two subjects on the left, the earlier one is taken |
| Svo.ExampleFirstSubject | arxiv_fetcher.py:73-85 | a sentence with two subjects yields one triple, built on the first subject |
| Keywords.KeptPositions | arxiv_fetcher.py:69 | the kept positions are increasing and are exactly the positions of alphabetic non-stopword tokens |
| Keywords.KeywordWords | arxiv_fetcher.py:69 | word `k` is the text of the `k`-th kept token in token order, and each text is kept as often as kept tokens carry it |
| Keywords.KeywordWordsFromKeptTokens | arxiv_fetcher.py:69 | every kept word is the text of an alphabetic non-stopword token |
| Keywords.PreprocessText | arxiv_fetcher.py:57-62 | no kept word gives the empty string, and one kept word gives that word alone |
| Keywords.PreprocessRoundTrip | arxiv_fetcherz.py:55-60 | splitting the preprocessed text at spaces gives back the kept words in order |
| Keywords.PreprocessInTokenOrder | arxiv_fetcher.py:57-62 | the `k`-th space-separated piece of the preprocessed text is the text of the `k`-th kept token, and there is one piece per kept token |
| Keywords.CounterItems | arxiv_fetcher.py:70 | the Counter's items pair each distinct word, in first-occurrence order, with its number of occurrences |
| Keywords.Ranked | arxiv_fetcher.py:70-71 | the sorted counter has one item per distinct word |
| Keywords.RankedEntries | arxiv_fetcher.py:70-71 | every sorted item is a word of the input with its exact count |
| Keywords.RankedOrdered | arxiv_fetcher.py:70-71 | each sorted item has a larger count than every later item, or the same count and an earlier first occurrence |
| Keywords.RankedComplete | arxiv_fetcher.py:70-71 | every word of the input has a sorted item |
| Keywords.MostCommon | arxiv_fetcher.py:71 | `most_common(n)` is empty for `n <= 0` and otherwise holds `min(n, number of distinct words)` entries |
| Keywords.MostCommonEntries | arxiv_fetcher.py:70-71 | the entries are distinct input words with exact counts; counts never increase along the list, and ties keep first-occurrence order |
| Keywords.MostCommonComplete | arxiv_fetcher.py:70-71 | when an input word is missing, the list is already `n` long and every listed word outranks the missing one |
| Keywords.ExtractKeywords | arxiv_fetcher.py:64-71 | no keywords for `top_n <= 0`, and never more than `top_n`; contents and tie order in Keywords.ExtractKeywordsFromTokens and Keywords.ExtractKeywordsTieOrder |
| Keywords.ExtractKeywordsFromTokens | arxiv_fetcherz.py:62-69 | every keyword is the text of an alphabetic non-stopword token, and its count is the number of such tokens with exactly that text |
| Keywords.FirstKept | arxiv_fetcher.py:69-70 | the first occurrence of a word among the kept words comes from the first kept token carrying that word |
| Keywords.ExtractKeywordsTieOrder | arxiv_fetcher.py:64-71 | of two keywords with equal counts, the one whose first kept token comes earlier in the text is listed first |
| Keywords.TieRankOrder | arxiv_fetcher.py:137 | counts low, high, low sort to positions 1, 0, 2, so the tie keeps input order |
| Keywords.TieRanked | arxiv_fetcher.py:70-71 | for `a b c b`, the sorted counter is `b:2`, `a:1`, `c:1` |
| Keywords.MostCommonTie | arxiv_fetcher.py:70-71 | `most_common(2)` of `a b c b` is `b:2`, `a:1`: the tie between `a` and `c` goes to the earlier word |
| Keywords.ExampleMostCommon | arxiv_fetcher.py:64-71 | `most_common(2)` of "data model graph model" is `model:2`, `data:1` |
| Papers.FilterByAuthor | arxiv_fetcher.py:118-122 | the filter keeps, in order and with their multiplicity, exactly the papers with an author whose name equals the requested one up to case |
| Papers.FilterByAuthorIgnoresCase | arxiv_fetcher.py:122 | filtering by a name or by its lower-cased form gives the same papers |
| Papers.FilterByAuthorIsExact | arxiv_fetcher.py:122 | part of an author's name ("jane" for "Jane Doe") does not select the paper |
| Papers.FilterByEmptyAuthor | arxiv_fetcher.py:122 | an empty name selects a paper that lists an empty author name |
| Papers.SearchByTitle | arxiv_fetcher.py:124-128 | the search keeps, in order and with their multiplicity, exactly the papers whose lower-cased title contains the lower-cased keyword |
| Papers.SearchEmptyKeepsAll | arxiv_fetcher.py:128 | the empty keyword keeps every paper |
| Papers.TitleMatchesIffOccurs | arxiv_fetcher.py:128 | a title matches exactly when the lower-cased keyword occurs at some index of the lower-cased title |
| Papers.SearchByTitleIgnoresCase | arxiv_fetcher.py:128 | searching for a keyword or for its lower-cased form gives the same papers |
| Papers.Score | arxiv_fetcher.py:134-135 | the empty keyword scores summary length plus one; otherwise the score is the number of a list of non-overlapping occurrences of the lower-cased keyword in the lower-cased summary, and it is positive exactly when the keyword occurs |
| Papers.ScoreIsMaximal | arxiv_fetcher.py:134-135 | no list of non-overlapping occurrences of the lower-cased keyword in the lower-cased summary is longer than the score |
| Papers.RankByKeyword | arxiv_fetcher.py:130-137 | the ranking has the same papers, each as often as in the input |
| Papers.RankByKeywordOrdered | arxiv_fetcher.py:137 | scores never increase along the ranking, and the ranking reads the papers through a stable descending order of their scores |
| Papers.RankByKeywordIsTheStableSort | arxiv_fetcher.py:137 | any reading of the papers through a stable descending order of their scores is the ranking |
| Papers.RankByEmptyKeyword | arxiv_fetcher.py:134-137 | with an empty keyword, longer summaries come first |
| Papers.ExampleScores | arxiv_fetcher.py:134-135 | "ml" scores 0 for "AI" and "ai ai" scores 2 |
| Papers.RankTwo | arxiv_fetcher.py:137 | of two papers, the one with the higher score is listed first |
| Papers.ExampleRank | arxiv_fetcher.py:130-137 | the paper whose summary is "ai ai" is ranked before the one whose summary is "ml" for the keyword "AI" |
| Render.Separator | arxiv_fetcher.py:105 | the separator is fifty `=` characters |
| Render.TitleLine | arxiv_fetcher.py:92 | the title line is `Title: ` followed by the title |
| Render.AuthorsLine | arxiv_fetcher.py:93 | the authors line is `Authors: ` followed by the names joined with `, `, the first name right after the label |
| Render.AuthorsLineLayout | arxiv_fetcher.py:93 | in the authors line author `k` follows the label and the `k` earlier names with their `, `, and every author but the last is followed by `, ` |
| Render.KeywordLine | arxiv_fetcher.py:100 | a keyword line starts with a dash, so it is never a separator |
| Render.SvoLine | arxiv_fetcher.py:104 | an SVO line starts with a dash, so it is never a separator |
| Render.BulletLine | af.py:94 | an object bullet is two characters longer than the keyword: `- ` and then the keyword |
| Render.ParseEntryRoundTrip | arxiv_fetcher.py:100 | `word: count` reads back as the word and the count when the word has no colon |
| Render.KeywordLineRoundTrip | arxiv_fetcher.py:100 | a printed keyword line reads back as the word and the count it was printed from |
| Render.PaperBlock | arxiv_fetcher.py:92-105 | a paper's lines are, in order, the title, the authors, `Keywords:`, one line per keyword, `SVO Structures:`, one line per triple, and the separator |
| Render.PaperBlockKeywordsReadBack | arxiv_fetcher.py:98-100 | the keyword block of a paper's lines reads back as the keyword entries |
| Render.PaperLines | arxiv_fetcherz.py:100-114 | a paper prints five fixed lines, at most ten keyword lines and one line per SVO triple of its summary |
| Render.SummarizePapers | arxiv_fetcher.py:87-105 | the printout has at least five lines per paper; its block structure is in Render.SummarizePapersBlocks |
| Render.SummarizePapersSeparators | arxiv_fetcher.py:91-105 | the printout holds exactly one separator per paper |
| Render.SummarizePapersBlocks | arxiv_fetcher.py:91-105 | the printout is each paper's block, one after another, in the order of the papers |
| Render.SummarizePapersAppend | arxiv_fetcher.py:91-105 | printing two lists of papers one after the other prints the first list's lines, then the second's |
| Render.SummarizeOnePaper | arxiv_fetcher.py:91-105 | printing a single paper prints exactly its block |
| Render.SummarizePapersLast | arxiv_fetcher.py:91-105 | the printout ends with the last paper's block, after the printout of the others |
| Render.ObjectKeywordBlock | af.py:83-96 | an object-only block is the title, the authors, `Extracted Keywords:`, one bullet per keyword and the separator |
| Render.ObjectKeywordPaperLines | af.py:82-96 | an object-only block has four fixed lines and one bullet per SVO triple |
| Render.SummarizeObjectKeywords | af.py:78-96 | the object-only printout has at least four lines per paper; its block structure is in Render.SummarizeObjectKeywordsBlocks |
| Render.SummarizeObjectKeywordsSeparators | af.py:82-96 | the object-only printout holds exactly one separator per paper |
| Render.SummarizeObjectKeywordsBlocks | af.py:82-96 | the object-only printout is each paper's block, one after another, in the order of the papers |
| Render.SummarizeObjectKeywordsAppend | af.py:82-96 | printing two lists of papers one after the other prints the first list's lines, then the second's |
| Render.SummarizeObjectKeywordsOne | af.py:82-96 | printing a single paper prints exactly its object-only block |
| Render.BulletsOfFirstObjects | af.py:92-94 | a block built from first objects has one bullet per ROOT, naming that ROOT's first object |
| Render.ObjectKeywordBullets | af.py:86-94 | the bullets of a paper name, in token order, the earliest object of every ROOT of its summary that has a subject and an object |

## Left out

- Fetching from the arXiv API, parsing the Atom XML, saving JSON files, the word cloud, the interactive menu and `main` are left out. They are network access, file I/O, plotting and console input.
- The `save_to_file(papers)` call at the end of `summarize_papers` in `arxiv_fetcherz.py` (line 117) is left out. It is file I/O.
- The parser is assumed deterministic: `parse` is a function, so the two parses of the same summary in `preprocess_text` and `extract_svo` are modelled as one. A parser that could return different results for the same text is not modelled.
- The spaCy model is not modelled. Tokenisation, the `is_alpha` and `is_stop` flags, dependency labels and heads come from a parameter or a given `Doc`. Nothing is proved about what the parser produces.
- `print` is not performed. Each `print` call is one string in the returned sequence of lines, and the trailing newline is not represented.
- Text.ToLower: maps only ASCII `A`-`Z`. Python's `str.lower` also maps other Unicode letters, and can change the length.
- Keywords.PreprocessRoundTrip: requires every alphabetic token text to be non-empty and free of spaces. `str.isalpha` guarantees this, but the model takes the flag from the parser without looking at the text. The lemma also requires at least one kept word, because splitting the empty string gives one empty piece.
- Render.KeywordLineRoundTrip: requires a word without a colon. Alphabetic words never have one.
- Render.PaperLines: states nothing relating the keywords of the re-parsed preprocessed text to the tokens of the summary, because that depends on the parser.
- Render.KeywordLine: states only that the line starts with a dash. Its full content is covered by Render.KeywordLineRoundTrip.
- Render.SvoLine: states only that the line starts with a dash. The arrow is `U+2192` between single spaces, as in the source.

=== FILE: keywords.dfy ===
/** The stopword filter (`preprocess_text`) and the keyword frequency ranking
    (`extract_keywords`, which is `Counter(words).most_common(top_n)`). */
module Keywords {
  import opened Seqs
  import opened StableSort
  import opened Text
  import opened Tokens

  /** `token.is_alpha and not token.is_stop` */
  predicate IsKeywordToken(t: Token)
  {
    t.isAlpha && !t.isStop
  }

  /** `t` is kept and its text is exactly `w` (case included). */
  predicate KeptAs(t: Token, w: string)
  {
    IsKeywordToken(t) && t.text == w
  }

  /** The positions of the kept tokens whose text is exactly `w`. */
  ghost function KeywordPositions(doc: Doc, w: string): set<nat>
  {
    set j: nat | j < |doc| && KeptAs(doc[j], w)
  }

  /** The positions of the kept tokens, in increasing order: all of them and
      nothing else. */
  function KeptPositions(doc: Doc): (idx: seq<nat>)
    ensures Ascending(idx)
    ensures forall k :: 0 <= k < |idx| ==> idx[k] < |doc| && IsKeywordToken(doc[idx[k]])
    ensures forall j: nat :: j < |doc| && IsKeywordToken(doc[j]) ==> j in idx
    decreases |doc|
  {
    if |doc| == 0 then []
    else
      var n := |doc| - 1;
      var init := KeptPositions(doc[..n]);
      assert forall k :: 0 <= k < n ==> doc[..n][k] == doc[k];
      if IsKeywordToken(doc[n]) then init + [n] else init
  }

  /** `[token.text for token in doc if token.is_alpha and not token.is_stop]`:
      word `k` is the text of the `k`-th kept token in token order, so every
      word is the text of a kept token and each text occurs as often as there
      are kept tokens carrying it. */
  function KeywordWords(doc: Doc): (r: seq<string>)
    ensures |r| == |KeptPositions(doc)|
    ensures forall k :: 0 <= k < |r| ==> r[k] == doc[KeptPositions(doc)[k]].text
    ensures forall w :: multiset(r)[w] == |KeywordPositions(doc, w)|
    decreases |doc|
  {
    if |doc| == 0 then []
    else
      var n := |doc| - 1;
      var init := KeywordWords(doc[..n]);
      var r := if IsKeywordToken(doc[n]) then init + [doc[n].text] else init;
      KeywordCountsStep(doc, init, r);
      KeptTextsStep(doc, init, r);
      r
  }

  /** Helper for `KeywordWords`: adding the last token's text when it is kept
      counts every text as often as kept tokens carry it. */
  lemma KeywordCountsStep(doc: Doc, init: seq<string>, r: seq<string>)
    requires |doc| > 0
    requires forall w :: multiset(init)[w] == |KeywordPositions(doc[..|doc| - 1], w)|
    requires r == if IsKeywordToken(doc[|doc| - 1]) then init + [doc[|doc| - 1].text] else init
    ensures forall w :: multiset(r)[w] == |KeywordPositions(doc, w)|
  {
    KeywordPositionsStep(doc);
  }

  /** Helper for `KeywordWords`: adding the last token's text when it is kept
      follows the kept positions of the whole document. */
  lemma KeptTextsStep(doc: Doc, init: seq<string>, r: seq<string>)
    requires |doc| > 0
    requires |init| == |KeptPositions(doc[..|doc| - 1])|
    requires forall k :: 0 <= k < |init| ==> init[k] == doc[..|doc| - 1][KeptPositions(doc[..|doc| - 1])[k]].text
    requires r == if IsKeywordToken(doc[|doc| - 1]) then init + [doc[|doc| - 1].text] else init
    ensures |r| == |KeptPositions(doc)|
    ensures forall k :: 0 <= k < |r| ==> r[k] == doc[KeptPositions(doc)[k]].text
  {
    var n := |doc| - 1;
    var before := KeptPositions(doc[..n]);
    assert KeptPositions(doc) == if IsKeywordToken(doc[n]) then before + [n] else before;
    forall k | 0 <= k < |init|
      ensures init[k] == doc[before[k]].text
    {
      assert doc[..n][before[k]] == doc[before[k]];
    }
  }

  /** `w` is the text of some alphabetic non-stopword token. */
  ghost predicate IsKeptText(doc: Doc, w: string)
  {
    exists j: nat :: j < |doc| && KeptAs(doc[j], w)
  }

  /** Every kept word is the text of an alphabetic non-stopword token. */
  lemma KeywordWordsFromKeptTokens(doc: Doc)
    ensures forall k :: 0 <= k < |KeywordWords(doc)| ==> IsKeptText(doc, KeywordWords(doc)[k])
  {
    var words := KeywordWords(doc);
    var idx := KeptPositions(doc);
    forall k | 0 <= k < |words|
      ensures IsKeptText(doc, words[k])
    {
      assert KeptAs(doc[idx[k]], words[k]);
    }
  }

  /** Helper for `KeywordWords`: the kept positions of `doc` are those of all
      but its last token, plus the last one when it is kept. */
  lemma KeywordPositionsStep(doc: Doc)
    requires |doc| > 0
    ensures forall k :: 0 <= k < |doc| - 1 ==> doc[..|doc| - 1][k] == doc[k]
    ensures forall w :: (|KeywordPositions(doc, w)|
      == |KeywordPositions(doc[..|doc| - 1], w)| + (if KeptAs(doc[|doc| - 1], w) then 1 else 0))
  {
    var n := |doc| - 1;
    forall w
      ensures |KeywordPositions(doc, w)|
        == |KeywordPositions(doc[..n], w)| + (if KeptAs(doc[n], w) then 1 else 0)
    {
      var before := KeywordPositions(doc[..n], w);
      assert n !in before;
      if KeptAs(doc[n], w) {
        assert KeywordPositions(doc, w) == before + {n};
      } else {
        assert KeywordPositions(doc, w) == before;
      }
    }
  }

  /** Kept words never contain a space when alphabetic tokens are non-empty
      and space-free, which is what `str.isalpha` guarantees. */
  predicate AlphaTextsWellFormed(doc: Doc)
  {
    forall j :: 0 <= j < |doc| && doc[j].isAlpha ==> |doc[j].text| > 0 && ' ' !in doc[j].text
  }

  /** `preprocess_text`: the kept words joined by single spaces. */
  function PreprocessText(doc: Doc): (r: string)
    ensures |KeywordWords(doc)| == 0 ==> r == ""
    ensures |KeywordWords(doc)| == 1 ==> r == KeywordWords(doc)[0]
  {
    Join(" ", KeywordWords(doc))
  }

  /** Splitting the preprocessed text at spaces gives back exactly the kept
      words. */
  lemma PreprocessRoundTrip(doc: Doc)
    requires AlphaTextsWellFormed(doc)
    requires |KeywordWords(doc)| > 0
    ensures Split(PreprocessText(doc), ' ') == KeywordWords(doc)
  {
    var words := KeywordWords(doc);
    var idx := KeptPositions(doc);
    forall k | 0 <= k < |words|
      ensures ' ' !in words[k]
    {
      assert idx[k] < |doc| && doc[idx[k]].isAlpha && words[k] == doc[idx[k]].text;
    }
    SplitJoin(words, ' ');
  }

  /** The preprocessed text is the texts of the kept tokens, in token order,
      between single spaces: its `k`-th space-separated piece is the text of
      the `k`-th kept token. */
  lemma PreprocessInTokenOrder(doc: Doc)
    requires AlphaTextsWellFormed(doc)
    requires |KeptPositions(doc)| > 0
    ensures var pieces := Split(PreprocessText(doc), ' ');
      && |pieces| == |KeptPositions(doc)|
      && forall k :: 0 <= k < |pieces| ==> pieces[k] == doc[KeptPositions(doc)[k]].text
  {
    PreprocessRoundTrip(doc);
  }

  /** One entry of `Counter.most_common`: a word and how often it occurs. */
  datatype WordCount = WordCount(word: string, count: nat)

  /** The items of `Counter(words)`, in first-insertion order. */
  function CounterItems(words: seq<string>): (r: seq<WordCount>)
    ensures |r| == |Dedup(words)|
    ensures forall i :: 0 <= i < |r| ==> r[i] == WordCount(Dedup(words)[i], multiset(words)[Dedup(words)[i]])
  {
    var d := Dedup(words);
    seq(|d|, i requires 0 <= i < |d| => WordCount(d[i], multiset(words)[d[i]]))
  }

  function Counts(items: seq<WordCount>): (r: seq<int>)
    ensures |r| == |items|
    ensures forall i :: 0 <= i < |r| ==> r[i] == items[i].count
  {
    seq(|items|, i requires 0 <= i < |items| => items[i].count)
  }

  /** Entry `a` comes before entry `b` in `most_common`: more occurrences, or
      as many and an earlier first occurrence. */
  predicate Outranks(words: seq<string>, a: WordCount, b: WordCount)
    requires a.word in words && b.word in words
  {
    a.count > b.count || (a.count == b.count && FirstIndex(words, a.word) < FirstIndex(words, b.word))
  }

  /** `sorted(Counter(words).items(), key=count, reverse=True)` */
  function Ranked(words: seq<string>): (r: seq<WordCount>)
    ensures |r| == |Dedup(words)|
  {
    SortItems(CounterItems(words))
  }

  /** `sorted(items, key=count, reverse=True)` */
  function SortItems(items: seq<WordCount>): (r: seq<WordCount>)
    ensures |r| == |items|
  {
    Apply(items, RankOrder(Counts(items)))
  }

  /** The sorted items are the items of the counter read in the stable
      descending order of their counts. */
  lemma RankedAt(words: seq<string>)
    ensures var items := CounterItems(words);
      var order := RankOrder(Counts(items));
      && |order| == |items|
      && (forall k :: 0 <= k < |order| ==> order[k] < |items| && Ranked(words)[k] == items[order[k]])
      && (forall i, j :: 0 <= i < j < |order| ==> Precedes(Counts(items), order[i], order[j]))
      && (forall p :: 0 <= p < |items| ==> p in order)
  {
    var items := CounterItems(words);
    StableDescendingFacts(Counts(items), RankOrder(Counts(items)));
  }

  /** A sorted item is a word of the input with its exact count. */
  lemma RankedEntryAt(words: seq<string>, k: nat)
    requires k < |Ranked(words)|
    ensures Ranked(words)[k].word in words
    ensures Ranked(words)[k].count == multiset(words)[Ranked(words)[k].word]
  {
    var items := CounterItems(words);
    var d := Dedup(words);
    var order := RankOrder(Counts(items));
    RankedAt(words);
    assert Ranked(words)[k] == items[order[k]];
    assert d[order[k]] in d;
  }

  /** A sorted item outranks every item after it. */
  lemma RankedPairAt(words: seq<string>, i: nat, j: nat)
    requires i < j < |Ranked(words)|
    ensures Ranked(words)[i].word in words && Ranked(words)[j].word in words
    ensures Outranks(words, Ranked(words)[i], Ranked(words)[j])
  {
    var items := CounterItems(words);
    var keys := Counts(items);
    var order := RankOrder(keys);
    RankedAt(words);
    DedupInFirstOccurrenceOrder(words);
    RankedEntryAt(words, i);
    RankedEntryAt(words, j);
    assert Ranked(words)[i] == items[order[i]] && Ranked(words)[j] == items[order[j]];
    assert Precedes(keys, order[i], order[j]);
  }

  /** The sorted items are the distinct words of the input with their exact counts. */
  lemma RankedEntries(words: seq<string>)
    ensures var r := Ranked(words);
      forall k :: 0 <= k < |r| ==> r[k].word in words && r[k].count == multiset(words)[r[k].word]
  {
    forall k | 0 <= k < |Ranked(words)|
      ensures Ranked(words)[k].word in words
      ensures Ranked(words)[k].count == multiset(words)[Ranked(words)[k].word]
    {
      RankedEntryAt(words, k);
    }
  }

  /** Each sorted item outranks the ones after it. */
  lemma RankedOrdered(words: seq<string>)
    ensures var r := Ranked(words);
      forall i, j :: 0 <= i < j < |r| ==> r[i].word in words && r[j].word in words && Outranks(words, r[i], r[j])
  {
    forall i, j | 0 <= i < j < |Ranked(words)|
      ensures Ranked(words)[i].word in words && Ranked(words)[j].word in words
      ensures Outranks(words, Ranked(words)[i], Ranked(words)[j])
    {
      RankedPairAt(words, i, j);
    }
  }

  /** Every word of the input has a sorted item. */
  lemma RankedComplete(words: seq<string>, w: string)
    requires w in words
    ensures exists k :: 0 <= k < |Ranked(words)| && Ranked(words)[k].word == w
  {
    var items := CounterItems(words);
    var d := Dedup(words);
    var order := RankOrder(Counts(items));
    RankedAt(words);
    assert w in d;
    var p :| 0 <= p < |d| && d[p] == w;
    assert p < |items| && p in order;
    var m :| 0 <= m < |order| && order[m] == p;
    assert Ranked(words)[m] == items[p];
  }

  /** `Counter(words).most_common(top_n)`: the sorted items cut after `top_n`;
      nothing for `top_n <= 0`. */
  function MostCommon(words: seq<string>, topN: int): (r: seq<WordCount>)
    ensures topN <= 0 ==> r == []
    ensures topN > 0 ==> |r| == if topN < |Dedup(words)| then topN else |Dedup(words)|
  {
    var ranked := Ranked(words);
    if topN <= 0 then []
    else if topN < |ranked| then ranked[..topN]
    else ranked
  }

  /** The entries of `most_common` are distinct words of the input, each with
      its exact number of occurrences; counts never increase along the list,
      and equal counts keep the order in which the words first occur. */
  lemma MostCommonEntries(words: seq<string>, topN: int)
    ensures var r := MostCommon(words, topN);
      && (forall k :: 0 <= k < |r| ==> r[k].word in words && r[k].count == multiset(words)[r[k].word])
      && (forall i, j :: 0 <= i < j < |r| ==> r[i].word != r[j].word)
      && (forall i, j :: 0 <= i < j < |r| ==> r[i].count >= r[j].count)
      && (forall i, j :: 0 <= i < j < |r| && r[i].count == r[j].count ==>
            FirstIndex(words, r[i].word) < FirstIndex(words, r[j].word))
  {
    RankedEntries(words);
    RankedOrdered(words);
    MostCommonIsPrefix(words, topN);
  }

  /** Helper: `most_common` is a prefix of the sorted items. */
  lemma MostCommonIsPrefix(words: seq<string>, topN: int)
    ensures |MostCommon(words, topN)| <= |Ranked(words)|
    ensures forall k :: 0 <= k < |MostCommon(words, topN)| ==> MostCommon(words, topN)[k] == Ranked(words)[k]
  {
  }

  /** No word is passed over: a word of the input missing from `most_common`
      means the list is already `top_n` long and every listed word outranks it. */
  lemma MostCommonComplete(words: seq<string>, topN: int, w: string)
    requires w in words
    requires forall k :: 0 <= k < |MostCommon(words, topN)| ==> MostCommon(words, topN)[k].word != w
    ensures |MostCommon(words, topN)| == if topN < 0 then 0 else topN
    ensures forall k :: 0 <= k < |MostCommon(words, topN)| ==>
      var e := MostCommon(words, topN)[k];
      e.count > multiset(words)[w]
      || (e.count == multiset(words)[w] && FirstIndex(words, e.word) < FirstIndex(words, w))
  {
    RankedComplete(words, w);
    MostCommonIsPrefix(words, topN);
    var ranked := Ranked(words);
    var r := MostCommon(words, topN);
    var m :| 0 <= m < |ranked| && ranked[m].word == w;
    assert |r| <= m;
    forall k | 0 <= k < |r|
      ensures r[k].count > multiset(words)[w]
        || (r[k].count == multiset(words)[w] && FirstIndex(words, r[k].word) < FirstIndex(words, w))
    {
      MostCommonBefore(words, topN, k, m);
    }
  }

  /** Helper for `MostCommonComplete`: a listed entry outranks every sorted
      item the list stops before. */
  lemma MostCommonBefore(words: seq<string>, topN: int, k: nat, m: nat)
    requires k < |MostCommon(words, topN)| <= m < |Ranked(words)|
    ensures var e := MostCommon(words, topN)[k];
      var w := Ranked(words)[m].word;
      && w in words
      && (e.count > multiset(words)[w]
          || (e.count == multiset(words)[w] && FirstIndex(words, e.word) < FirstIndex(words, w)))
  {
    MostCommonIsPrefix(words, topN);
    RankedEntryAt(words, m);
    RankedPairAt(words, k, m);
  }

  /** `extract_keywords`: the `top_n` most frequent kept words of a parsed text. */
  function ExtractKeywords(doc: Doc, topN: int): (r: seq<WordCount>)
    ensures topN <= 0 ==> r == []
    ensures topN >= 0 ==> |r| <= topN
  {
    MostCommon(KeywordWords(doc), topN)
  }

  /** Every extracted keyword is the text of an alphabetic non-stopword token,
      and its count is the number of such tokens carrying exactly that text. */
  lemma ExtractKeywordsFromTokens(doc: Doc, topN: int)
    ensures var r := ExtractKeywords(doc, topN);
      forall k :: 0 <= k < |r| ==>
        && IsKeptText(doc, r[k].word)
        && r[k].count == |KeywordPositions(doc, r[k].word)|
  {
    var words := KeywordWords(doc);
    var idx := KeptPositions(doc);
    MostCommonEntries(words, topN);
    var r := ExtractKeywords(doc, topN);
    forall k | 0 <= k < |r|
      ensures IsKeptText(doc, r[k].word)
    {
      var i :| 0 <= i < |words| && words[i] == r[k].word;
      assert KeptAs(doc[idx[i]], r[k].word);
    }
  }

  /** `p` is the position of the first kept token whose text is `w`. */
  predicate FirstKeptAt(doc: Doc, w: string, p: nat)
  {
    p < |doc| && KeptAs(doc[p], w) && forall q :: 0 <= q < p ==> !KeptAs(doc[q], w)
  }

  /** The position of the first kept token carrying `w`: where the first
      occurrence of `w` among the kept words comes from. */
  function FirstKept(doc: Doc, w: string): (p: nat)
    requires w in KeywordWords(doc)
    ensures FirstKeptAt(doc, w, p)
  {
    var words := KeywordWords(doc);
    var idx := KeptPositions(doc);
    var f := FirstIndex(words, w);
    FirstKeptBefore(doc, w, f);
    idx[f]
  }

  /** Helper for `FirstKept`: no kept token before the one behind the first
      occurrence of `w` carries `w`. */
  lemma FirstKeptBefore(doc: Doc, w: string, f: nat)
    requires w in KeywordWords(doc) && f == FirstIndex(KeywordWords(doc), w)
    ensures f < |KeptPositions(doc)|
    ensures forall q :: 0 <= q < KeptPositions(doc)[f] ==> !KeptAs(doc[q], w)
  {
    var words := KeywordWords(doc);
    var idx := KeptPositions(doc);
    forall q | 0 <= q < idx[f]
      ensures !KeptAs(doc[q], w)
    {
      if IsKeywordToken(doc[q]) {
        assert q in idx;
        var m :| 0 <= m < |idx| && idx[m] == q;
        AscendingIndexOrder(idx, m, f);
        assert words[m] == doc[q].text;
        assert words[m] != w;
      }
    }
  }

  /** `most_common` breaks ties by first insertion into the counter, so of two
      keywords with equal counts the one whose first kept token comes earlier
      in the text is listed first. */
  lemma ExtractKeywordsTieOrder(doc: Doc, topN: int, i: nat, j: nat)
    requires i < j < |ExtractKeywords(doc, topN)|
    requires ExtractKeywords(doc, topN)[i].count == ExtractKeywords(doc, topN)[j].count
    ensures var r := ExtractKeywords(doc, topN);
      && r[i].word in KeywordWords(doc) && r[j].word in KeywordWords(doc)
      && FirstKept(doc, r[i].word) < FirstKept(doc, r[j].word)
  {
    var words := KeywordWords(doc);
    var r := ExtractKeywords(doc, topN);
    var idx := KeptPositions(doc);
    MostCommonEntries(words, topN);
    var a := FirstIndex(words, r[i].word);
    var b := FirstIndex(words, r[j].word);
    assert a < b;
    FirstKeptBefore(doc, r[i].word, a);
    FirstKeptBefore(doc, r[j].word, b);
    assert idx[a] < idx[b];
  }

  /** The distinct words of `a b c b`, in first-occurrence order. */
  lemma TieDedup(a: string, b: string, c: string)
    requires a != b && a != c && b != c
    ensures Dedup([a, b, c, b]) == [a, b, c]
  {
    var words := [a, b, c, b];
    assert words[..1] == [a];
    assert words[..2] == [a, b];
    assert words[..3] == [a, b, c];
    assert Dedup(words[..1]) == [a];
    assert Dedup(words[..2]) == [a, b] by {
      assert words[..2][..1] == words[..1];
    }
    assert Dedup(words[..3]) == [a, b, c] by {
      assert words[..3][..2] == words[..2];
    }
  }

  /** The counter of `a b c b`, in first-insertion order. */
  lemma TieCounterItems(a: string, b: string, c: string)
    requires a != b && a != c && b != c
    ensures CounterItems([a, b, c, b]) == [WordCount(a, 1), WordCount(b, 2), WordCount(c, 1)]
  {
    var words := [a, b, c, b];
    TieDedup(a, b, c);
    assert multiset(words)[a] == 1;
    assert multiset(words)[b] == 2;
    assert multiset(words)[c] == 1;
  }

  /** Positions 1, 0, 2 list each of three positions once. */
  lemma SwapFirstTwoOfThree()
    ensures multiset([1, 0, 2]) == multiset(Range(3))
  {
    assert Range(3) == [0, 1, 2];
    assert multiset([1, 0, 2]) == multiset([0, 1, 2]);
  }

  /** Keys low, high, low are stably sorted by taking the middle position first
      and keeping the two equal keys in input order. */
  lemma TieIsStableDescending(keys: seq<int>)
    requires |keys| == 3 && keys[0] == keys[2] < keys[1]
    ensures IsStableDescending(keys, [1, 0, 2])
  {
    SwapFirstTwoOfThree();
    var order: seq<nat> := [1, 0, 2];
    assert Precedes(keys, order[0], order[1]) && Precedes(keys, order[0], order[2]) && Precedes(keys, order[1], order[2]);
  }

  /** Keys low, high, low sort to positions 1, 0, 2: the tie keeps input order. */
  lemma TieRankOrder(keys: seq<int>)
    requires |keys| == 3 && keys[0] == keys[2] < keys[1]
    ensures RankOrder(keys) == [1, 0, 2]
  {
    TieIsStableDescending(keys);
    RankOrderIsTheStableSort(keys, [1, 0, 2]);
  }

  /** The sorted counter of `a b c b`. */
  lemma TieRanked(a: string, b: string, c: string)
    requires a != b && a != c && b != c
    ensures Ranked([a, b, c, b]) == [WordCount(b, 2), WordCount(a, 1), WordCount(c, 1)]
  {
    TieCounterItems(a, b, c);
    TieSortItems([WordCount(a, 1), WordCount(b, 2), WordCount(c, 1)]);
  }

  /** Sorting three items whose first and last tie below the middle one moves
      the middle one to the front. */
  lemma TieSortItems(items: seq<WordCount>)
    requires |items| == 3 && items[0].count == items[2].count < items[1].count
    ensures SortItems(items) == [items[1], items[0], items[2]]
  {
    var keys := Counts(items);
    TieRankOrder(keys);
    var r := Apply(items, [1, 0, 2]);
    assert r[0] == items[1] && r[1] == items[0] && r[2] == items[2];
  }

  /** In `a b c b` the word `b` leads with two occurrences, and of the two words
      that occur once, `a` wins the tie because it occurs first. */
  lemma MostCommonTie(a: string, b: string, c: string)
    requires a != b && a != c && b != c
    ensures MostCommon([a, b, c, b], 2) == [WordCount(b, 2), WordCount(a, 1)]
  {
    TieRanked(a, b, c);
    var ranked := [WordCount(b, 2), WordCount(a, 1), WordCount(c, 1)];
    assert ranked[..2] == [WordCount(b, 2), WordCount(a, 1)];
  }

  /** "data model graph model": "model" comes first, then "data", which ties
      with "graph" and occurs before it. */
  lemma ExampleMostCommon()
    ensures MostCommon(["data", "model", "graph", "model"], 2)
      == [WordCount("model", 2), WordCount("data", 1)]
  {
    MostCommonTie("data", "model", "graph");
  }
}

=== FILE: options.dfy ===
/** Optional values, and collecting the present ones out of a sequence of them
    (the shape of a loop that appends to a list only when a test passes). */
module Options {
  import opened Seqs

  datatype Option<T> = None | Some(value: T)

  /** The values that are present, in order. */
  function Somes<T>(e: seq<Option<T>>): seq<T>
    decreases |e|
  {
    if |e| == 0 then []
    else
      var init := Somes(e[..|e| - 1]);
      match e[|e| - 1]
      case Some(v) => init + [v]
      case None => init
  }

  /** The positions of the present values, in order. */
  function SomeIndices<T>(e: seq<Option<T>>): (r: seq<nat>)
    ensures Ascending(r)
    ensures forall k :: 0 <= k < |r| ==> r[k] < |e| && e[r[k]].Some?
    ensures forall i :: 0 <= i < |e| && e[i].Some? ==> i in r
    decreases |e|
  {
    if |e| == 0 then []
    else
      var init := SomeIndices(e[..|e| - 1]);
      if e[|e| - 1].Some? then init + [|e| - 1] else init
  }

  /** The k-th present value sits at the k-th present position. */
  lemma {:induction false} SomesAtSomeIndices<T>(e: seq<Option<T>>)
    ensures |Somes(e)| == |SomeIndices(e)|
    ensures forall k :: 0 <= k < |Somes(e)| ==> e[SomeIndices(e)[k]] == Some(Somes(e)[k])
    decreases |e|
  {
    if |e| > 0 {
      var init := e[..|e| - 1];
      SomesAtSomeIndices(init);
      var vs, ix := Somes(init), SomeIndices(init);
      forall k | 0 <= k < |vs|
        ensures e[ix[k]] == Some(vs[k])
      {
        assert init[ix[k]] == e[ix[k]];
      }
    }
  }
}

=== FILE: papers.dfy ===
/** The paper records and the three collection operations on them: keeping the
    papers of one author, searching titles, and ranking by how often a keyword
    occurs in the summary. */
module Papers {
  import opened Seqs
  import opened StableSort
  import opened Text

  /** One parsed arXiv entry: its title, its author names in order, its summary. */
  datatype Paper = Paper(title: string, authors: seq<string>, summary: string)

  /** `author_name.lower() in (author.lower() for author in paper['authors'])`:
      some author's name equals `name` once both are lower-cased. */
  predicate HasAuthor(p: Paper, name: string)
  {
    exists k :: 0 <= k < |p.authors| && ToLower(p.authors[k]) == ToLower(name)
  }

  /** `filter_papers_by_author`: the papers with an author called `name`, up to
      case, kept unchanged and in their original order. */
  function FilterByAuthor(papers: seq<Paper>, name: string): (r: seq<Paper>)
    ensures IsSubseq(r, papers)
    ensures forall p :: p in r <==> p in papers && HasAuthor(p, name)
    ensures forall p :: HasAuthor(p, name) ==> multiset(r)[p] == multiset(papers)[p]
  {
    Filter(papers, p => HasAuthor(p, name))
  }

  /** Filtering with two tests that agree on every element gives the same result. */
  lemma {:induction false} FilterSameTest<T(!new)>(s: seq<T>, f: T -> bool, g: T -> bool)
    requires forall k :: 0 <= k < |s| ==> f(s[k]) == g(s[k])
    ensures Filter(s, f) == Filter(s, g)
    decreases |s|
  {
    if |s| > 0 {
      FilterSameTest(s[1..], f, g);
    }
  }

  /** The author filter ignores the case of the name asked for. */
  lemma FilterByAuthorIgnoresCase(papers: seq<Paper>, name: string)
    ensures FilterByAuthor(papers, name) == FilterByAuthor(papers, ToLower(name))
  {
    ToLowerIdempotent(name);
    FilterSameTest(papers, p => HasAuthor(p, name), p => HasAuthor(p, ToLower(name)));
  }

  /** The match is on whole names: a name that is only part of an author's
      name does not select the paper. */
  lemma FilterByAuthorIsExact()
    ensures FilterByAuthor([Paper("T", ["Jane Doe"], "S")], "jane") == []
  {
    var p := Paper("T", ["Jane Doe"], "S");
    assert |ToLower("Jane Doe")| != |ToLower("jane")|;
    assert !HasAuthor(p, "jane");
  }

  /** An empty name is not special: it selects a paper listing an empty author name. */
  lemma FilterByEmptyAuthor()
    ensures FilterByAuthor([Paper("T", [""], "S")], "") == [Paper("T", [""], "S")]
  {
    var p := Paper("T", [""], "S");
    assert ToLower(p.authors[0]) == ToLower("");
    assert HasAuthor(p, "");
  }

  /** `keyword.lower() in paper['title'].lower()` */
  predicate TitleMatches(p: Paper, keyword: string)
  {
    Contains(ToLower(p.title), ToLower(keyword))
  }

  /** `search_papers_by_title`: the papers whose lower-cased title contains the
      lower-cased keyword, kept unchanged and in their original order. */
  function SearchByTitle(papers: seq<Paper>, keyword: string): (r: seq<Paper>)
    ensures IsSubseq(r, papers)
    ensures forall p :: p in r <==> p in papers && TitleMatches(p, keyword)
    ensures forall p :: TitleMatches(p, keyword) ==> multiset(r)[p] == multiset(papers)[p]
  {
    Filter(papers, p => TitleMatches(p, keyword))
  }

  /** The empty keyword occurs in every title, so searching for it keeps every paper. */
  lemma SearchEmptyKeepsAll(papers: seq<Paper>)
    ensures SearchByTitle(papers, "") == papers
  {
    forall k | 0 <= k < |papers|
      ensures TitleMatches(papers[k], "")
    {
      ContainsEmpty(ToLower(papers[k].title));
    }
    FilterKeepsAll(papers, p => TitleMatches(p, ""));
  }

  /** A title matches when the keyword, lower-cased, stands at some position
      of the lower-cased title. */
  lemma TitleMatchesIffOccurs(p: Paper, keyword: string)
    ensures TitleMatches(p, keyword) <==> exists i: nat :: OccursAt(ToLower(p.title), ToLower(keyword), i)
  {
    ContainsIffOccurs(ToLower(p.title), ToLower(keyword));
  }

  /** The search ignores the case of the keyword. */
  lemma SearchByTitleIgnoresCase(papers: seq<Paper>, keyword: string)
    ensures SearchByTitle(papers, keyword) == SearchByTitle(papers, ToLower(keyword))
  {
    ToLowerIdempotent(keyword);
    FilterSameTest(papers, p => TitleMatches(p, keyword), p => TitleMatches(p, ToLower(keyword)));
  }

  /** `summary.lower().count(keyword.lower())`: non-overlapping occurrences, up
      to case; the empty keyword scores the summary's length plus one. A
      non-empty keyword scores as many as the greedy occurrences listed by
      `Occurrences`, and `ScoreIsMaximal` shows no choice has more. */
  function Score(p: Paper, keyword: string): (n: nat)
    ensures |keyword| == 0 ==> n == |p.summary| + 1
    ensures |keyword| > 0 ==> n == |Occurrences(ToLower(p.summary), ToLower(keyword))|
    ensures |keyword| > 0 ==> NonOverlapping(ToLower(p.summary), ToLower(keyword), Occurrences(ToLower(p.summary), ToLower(keyword)))
    ensures |keyword| > 0 ==> n * |keyword| <= |p.summary|
    ensures |keyword| > 0 ==> (n > 0 <==> Contains(ToLower(p.summary), ToLower(keyword)))
  {
    CountOccurrences(ToLower(p.summary), ToLower(keyword))
  }

  /** No set of non-overlapping occurrences of the keyword in the summary,
      both lower-cased, is larger than the score. */
  lemma ScoreIsMaximal(p: Paper, keyword: string, ps: seq<nat>)
    requires |keyword| > 0 && NonOverlapping(ToLower(p.summary), ToLower(keyword), ps)
    ensures |ps| <= Score(p, keyword)
  {
    CountIsMaximal(ToLower(p.summary), ToLower(keyword), ps);
  }

  function Scores(papers: seq<Paper>, keyword: string): (r: seq<int>)
    ensures |r| == |papers|
    ensures forall i :: 0 <= i < |r| ==> r[i] == Score(papers[i], keyword)
  {
    seq(|papers|, i requires 0 <= i < |papers| => Score(papers[i], keyword))
  }

  /** `rank_papers_by_keyword`: the papers, each kept as often as it occurs,
      sorted by descending score. */
  function RankByKeyword(papers: seq<Paper>, keyword: string): (r: seq<Paper>)
    ensures |r| == |papers|
    ensures multiset(r) == multiset(papers)
  {
    var keys := Scores(papers, keyword);
    var order := RankOrder(keys);
    ApplyStableDescending(papers, keys, order);
    Apply(papers, order)
  }

  /** The ranking never lists a lower score before a higher one, and it reads
      the papers through a stable descending order of their scores: papers
      with equal scores keep their input order. */
  lemma RankByKeywordOrdered(papers: seq<Paper>, keyword: string)
    ensures var r := RankByKeyword(papers, keyword);
      forall i, j :: 0 <= i < j < |r| ==> Score(r[i], keyword) >= Score(r[j], keyword)
    ensures exists order: seq<nat> ::
      && IsStableDescending(Scores(papers, keyword), order)
      && (forall k :: 0 <= k < |order| ==> order[k] < |papers|)
      && RankByKeyword(papers, keyword) == Apply(papers, order)
  {
    var keys := Scores(papers, keyword);
    var order := RankOrder(keys);
    var r := RankByKeyword(papers, keyword);
    forall i, j | 0 <= i < j < |r|
      ensures Score(r[i], keyword) >= Score(r[j], keyword)
    {
      assert Precedes(keys, order[i], order[j]);
    }
  }

  /** The stable sort is unique: any listing of the papers through a stable
      descending order of their scores is the ranking. */
  lemma RankByKeywordIsTheStableSort(papers: seq<Paper>, keyword: string, order: seq<nat>)
    requires IsStableDescending(Scores(papers, keyword), order)
    ensures forall k :: 0 <= k < |order| ==> order[k] < |papers|
    ensures RankByKeyword(papers, keyword) == Apply(papers, order)
  {
    RankOrderIsTheStableSort(Scores(papers, keyword), order);
  }

  /** With an empty keyword every paper scores its summary's length plus one,
      so the ranking puts longer summaries first. */
  lemma RankByEmptyKeyword(papers: seq<Paper>)
    ensures var r := RankByKeyword(papers, "");
      forall i, j :: 0 <= i < j < |r| ==> |r[i].summary| >= |r[j].summary|
  {
    RankByKeywordOrdered(papers, "");
  }

  /** "ml" holds no "ai", while "ai ai" holds two, whatever the keyword's case. */
  lemma ExampleScores()
    ensures Score(Paper("A", [], "ml"), "AI") == 0
    ensures Score(Paper("B", [], "ai ai"), "AI") == 2
  {
    assert ToLower("AI") == "ai";
    assert ToLower("ml") == "ml";
    assert ToLower("ai ai") == "ai ai";
    assert CountOccurrences("ml", "ai") == 0 by {
      assert "ml"[0] != "ai"[0] && "ml"[1..] == "l";
    }
    assert CountOccurrences("ai ai", "ai") == 2 by {
      assert "ai ai"[2..] == " ai" && " ai"[1..] == "ai";
      assert " ai"[0] != "ai"[0];
      assert CountOccurrences("ai", "ai") == 1 by {
        assert "ai"[2..] == "";
      }
    }
  }

  /** Of two papers, the one with the higher score is listed first. */
  lemma RankTwo(papers: seq<Paper>, keyword: string)
    requires |papers| == 2 && Score(papers[0], keyword) < Score(papers[1], keyword)
    ensures RankByKeyword(papers, keyword) == [papers[1], papers[0]]
  {
    var keys := Scores(papers, keyword);
    assert keys == [Score(papers[0], keyword), Score(papers[1], keyword)];
    SwapIsStableDescending(keys[0], keys[1]);
    RankByKeywordIsTheStableSort(papers, keyword, [1, 0]);
  }

  /** Two keys in increasing order are sorted by swapping them. */
  lemma SwapIsStableDescending(x: int, y: int)
    requires x < y
    ensures IsStableDescending([x, y], [1, 0])
  {
    assert Range(2) == [0, 1];
    assert multiset([1, 0]) == multiset([0, 1]);
  }

  /** "ai ai" scores 2 for "AI" and "ml" scores 0, so the paper about
      AI moves to the front. */
  lemma ExampleRank()
    ensures RankByKeyword([Paper("A", [], "ml"), Paper("B", [], "ai ai")], "AI")
      == [Paper("B", [], "ai ai"), Paper("A", [], "ml")]
  {
    ExampleScores();
    RankTwo([Paper("A", [], "ml"), Paper("B", [], "ai ai")], "AI");
  }
}

=== FILE: render.dfy ===
/** The text `summarize_papers` prints, as a sequence of lines (one per `print`
    call), in the two formats of the repository: keywords with counts and SVO
    triples, and the object-only keyword list. The dependency parser is a
    parameter, a function of the text. The program parses each summary twice,
    in `preprocess_text` and in `extract_svo`, and the preprocessed text once
    more in `extract_keywords`. Because `parse` gives the same `Doc` for the
    same text, the model parses the summary once and shares that `Doc`. */
module Render {
  import opened Seqs
  import opened Options
  import opened Text
  import opened Tokens
  import opened Svo
  import opened Keywords
  import opened Papers

  /** `"=" * 50` */
  function Separator(): (r: string)
    ensures |r| == 50
    ensures forall i :: 0 <= i < |r| ==> r[i] == '='
  {
    Repeat('=', 50)
  }

  const Arrow: string := " \U{2192} "
  const OccurrencesSuffix: string := " occurrences"

  /** `f"Title: {paper['title']}"`: the title follows a fixed label. */
  function TitleLine(p: Paper): (r: string)
    ensures |r| == 7 + |p.title| && r[..7] == "Title: " && r[7..] == p.title
  {
    "Title: " + p.title
  }

  /** `f"Authors: {', '.join(paper['authors'])}"`: the author names follow a
      fixed label, the first one right after it. */
  function AuthorsLine(p: Paper): (r: string)
    ensures |r| >= 9 && r[..9] == "Authors: " && r[9..] == Join(", ", p.authors)
    ensures |p.authors| > 0 ==> "Authors: " + p.authors[0] <= r
  {
    "Authors: " + Join(", ", p.authors)
  }

  /** In the authors line, author `k` follows the label and the `k` earlier
      names, each with its `", "`; every author but the last is followed by `", "`. */
  lemma AuthorsLineLayout(p: Paper, k: nat)
    requires k < |p.authors|
    ensures OccursAt(AuthorsLine(p), p.authors[k], 9 + JoinStart(", ", p.authors, k))
    ensures k + 1 < |p.authors| ==>
      OccursAt(AuthorsLine(p), ", ", 9 + JoinStart(", ", p.authors, k) + |p.authors[k]|)
  {
    var j := Join(", ", p.authors);
    var b := JoinStart(", ", p.authors, k);
    JoinLayout(", ", p.authors, k);
    OccursAfterPrefix("Authors: ", j, p.authors[k], b);
    if k + 1 < |p.authors| {
      OccursAfterPrefix("Authors: ", j, ", ", b + |p.authors[k]|);
    }
  }

  /** `f"{word}: {freq}"` */
  function EntryText(e: WordCount): string
  {
    e.word + ": " + NatToString(e.count)
  }

  /** `f"- {word}: {freq} occurrences"` */
  function KeywordLine(e: WordCount): (r: string)
    ensures |r| > 2 && r[0] == '-'
  {
    "- " + EntryText(e) + OccurrencesSuffix
  }

  /** `f"- {svo[0]} → {svo[1]} → {svo[2]}"` */
  function SvoLine(t: Triple): (r: string)
    ensures |r| > 2 && r[0] == '-'
  {
    "- " + t.subject + Arrow + t.verb + Arrow + t.obj
  }

  /** `f"- {keyword}"` */
  function BulletLine(k: string): (r: string)
    ensures |r| == 2 + |k| && r[..2] == "- " && r[2..] == k
  {
    "- " + k
  }

  /** Reads a keyword line back into its word and count; `None` for any line
      not of that shape. The program never does this; it is how the round-trip
      lemmas read printed lines back. */
  function ParseKeywordLine(line: string): Option<WordCount>
  {
    var n := |OccurrencesSuffix|;
    if |line| < 2 + n || line[..2] != "- " || line[|line| - n..] != OccurrencesSuffix then None
    else ParseEntry(line[2..|line| - n])
  }

  /** Reads `word: count` back; the word is everything before the first colon. */
  function ParseEntry(m: string): Option<WordCount>
  {
    if ':' !in m then None
    else
      var i := FirstIndex(m, ':');
      if i + 2 > |m| || m[i + 1] != ' ' || !IsDigits(m[i + 2..]) then None
      else Some(WordCount(m[..i], ParseDecimal(m[i + 2..])))
  }

  /** Cutting a known prefix and suffix off a string leaves the middle. */
  lemma StripAffixes(pre: string, mid: string, suf: string)
    ensures var line := pre + mid + suf;
      line[..|pre|] == pre && line[|line| - |suf|..] == suf && line[|pre|..|line| - |suf|] == mid
  {
  }

  /** The first colon of `w + ": " + rest` ends `w` when `w` has none. */
  lemma FirstColonAfterWord(w: string, rest: string)
    requires ':' !in w
    ensures ':' in w + ": " + rest
    ensures FirstIndex(w + ": " + rest, ':') == |w|
  {
    var m := w + ": " + rest;
    assert m[|w|] == ':';
    assert forall k :: 0 <= k < |w| ==> m[k] == w[k] && m[k] != ':';
  }

  /** `word: count` reads back as the entry when the word has no colon. */
  lemma ParseEntryRoundTrip(e: WordCount)
    requires ':' !in e.word
    ensures ParseEntry(EntryText(e)) == Some(e)
  {
    var digits := NatToString(e.count);
    var m := e.word + ": " + digits;
    FirstColonAfterWord(e.word, digits);
    var i := |e.word|;
    assert m[i + 1] == ' ';
    assert m[i + 2..] == digits;
    assert m[..i] == e.word;
    ParseNatToString(e.count);
  }

  /** A keyword line gives back the entry it was printed from, provided the
      word has no colon (alphabetic tokens never do). */
  lemma KeywordLineRoundTrip(e: WordCount)
    requires ':' !in e.word
    ensures ParseKeywordLine(KeywordLine(e)) == Some(e)
  {
    StripAffixes("- ", EntryText(e), OccurrencesSuffix);
    ParseEntryRoundTrip(e);
  }

  /** One paper's lines in the format with keyword counts and SVO triples:
      title, authors, the keyword block, the SVO block, a separator. */
  function PaperBlock(p: Paper, keywords: seq<WordCount>, svos: seq<Triple>): (r: seq<string>)
    ensures |r| == 5 + |keywords| + |svos|
    ensures r[0] == TitleLine(p) && r[1] == AuthorsLine(p) && r[2] == "Keywords:"
    ensures forall k :: 0 <= k < |keywords| ==> r[3 + k] == KeywordLine(keywords[k])
    ensures r[3 + |keywords|] == "SVO Structures:"
    ensures forall k :: 0 <= k < |svos| ==> r[4 + |keywords| + k] == SvoLine(svos[k])
    ensures r[|r| - 1] == Separator()
  {
    [TitleLine(p), AuthorsLine(p), "Keywords:"]
      + seq(|keywords|, k requires 0 <= k < |keywords| => KeywordLine(keywords[k]))
      + ["SVO Structures:"]
      + seq(|svos|, k requires 0 <= k < |svos| => SvoLine(svos[k]))
      + [Separator()]
  }

  /** The keyword block of a paper's lines reads back as the keyword entries. */
  lemma PaperBlockKeywordsReadBack(p: Paper, keywords: seq<WordCount>, svos: seq<Triple>)
    requires forall k :: 0 <= k < |keywords| ==> ':' !in keywords[k].word
    ensures var r := PaperBlock(p, keywords, svos);
      forall k :: 0 <= k < |keywords| ==> ParseKeywordLine(r[3 + k]) == Some(keywords[k])
  {
    forall k | 0 <= k < |keywords|
      ensures ParseKeywordLine(KeywordLine(keywords[k])) == Some(keywords[k])
    {
      KeywordLineRoundTrip(keywords[k]);
    }
  }

  /** The lines `summarize_papers` prints for one paper: the keywords are
      counted on a parse of the preprocessed summary, and at most ten are
      shown; the SVO triples come from the summary itself. The one parse of the
      summary stands for both of the program's parses of it. */
  function PaperLines(parse: string -> Doc, p: Paper): (r: seq<string>)
    ensures 5 + |ExtractSvo(parse(p.summary))| <= |r| <= 15 + |ExtractSvo(parse(p.summary))|
  {
    var summary := parse(p.summary);
    PaperBlock(p, ExtractKeywords(parse(PreprocessText(summary)), 10), ExtractSvo(summary))
  }

  /** `summarize_papers` in the format with keyword counts and SVO triples. */
  function SummarizePapers(parse: string -> Doc, papers: seq<Paper>): (r: seq<string>)
    ensures |r| >= 5 * |papers|
    decreases |papers|
  {
    if |papers| == 0 then [] else PaperLines(parse, papers[0]) + SummarizePapers(parse, papers[1..])
  }

  /** Each paper's lines in the format with keyword counts and SVO triples. */
  function PaperLinesOf(parse: string -> Doc): Paper -> seq<string>
  {
    p => PaperLines(parse, p)
  }

  /** The printout is each paper's block, one after another. */
  lemma {:induction false} SummarizePapersBlocks(parse: string -> Doc, papers: seq<Paper>)
    ensures SummarizePapers(parse, papers) == FlatMap(PaperLinesOf(parse), papers)
    decreases |papers|
  {
    if |papers| > 0 {
      SummarizePapersBlocks(parse, papers[1..]);
    }
  }

  /** The printout of two lists of papers one after the other is the printout
      of the first list followed by that of the second. */
  lemma SummarizePapersAppend(parse: string -> Doc, a: seq<Paper>, b: seq<Paper>)
    ensures SummarizePapers(parse, a + b) == SummarizePapers(parse, a) + SummarizePapers(parse, b)
  {
    SummarizePapersBlocks(parse, a + b);
    SummarizePapersBlocks(parse, a);
    SummarizePapersBlocks(parse, b);
    FlatMapAppend(PaperLinesOf(parse), a, b);
  }

  /** The printout of a single paper is that paper's block. */
  lemma SummarizeOnePaper(parse: string -> Doc, p: Paper)
    ensures SummarizePapers(parse, [p]) == PaperLines(parse, p)
  {
    assert [p][1..] == [];
  }

  /** So the printout is each paper's block, in the order of the papers: the
      lines up to the last paper's block are the printout of the others. */
  lemma SummarizePapersLast(parse: string -> Doc, papers: seq<Paper>)
    requires |papers| > 0
    ensures var init := papers[..|papers| - 1];
      SummarizePapers(parse, papers) == SummarizePapers(parse, init) + PaperLines(parse, papers[|papers| - 1])
  {
    var init := papers[..|papers| - 1];
    assert papers == init + [papers[|papers| - 1]];
    SummarizePapersAppend(parse, init, [papers[|papers| - 1]]);
    SummarizeOnePaper(parse, papers[|papers| - 1]);
  }

  /** One paper's lines in the object-only format: title, authors, one bullet
      per keyword, a separator. */
  function ObjectKeywordBlock(p: Paper, keywords: seq<string>): (r: seq<string>)
    ensures |r| == 4 + |keywords|
    ensures r[0] == TitleLine(p) && r[1] == AuthorsLine(p) && r[2] == "Extracted Keywords:"
    ensures forall k :: 0 <= k < |keywords| ==> r[3 + k] == BulletLine(keywords[k])
    ensures r[|r| - 1] == Separator()
  {
    [TitleLine(p), AuthorsLine(p), "Extracted Keywords:"]
      + seq(|keywords|, k requires 0 <= k < |keywords| => BulletLine(keywords[k]))
      + [Separator()]
  }

  /** The lines of one paper in the object-only format: the keywords are the
      objects of the summary's SVO triples. */
  function ObjectKeywordPaperLines(parse: string -> Doc, p: Paper): (r: seq<string>)
    ensures |r| == 4 + |ExtractSvo(parse(p.summary))|
  {
    ObjectKeywordBlock(p, Emphasize(ExtractSvo(parse(p.summary))))
  }

  /** `summarize_papers` in the object-only format. */
  function SummarizeObjectKeywords(parse: string -> Doc, papers: seq<Paper>): (r: seq<string>)
    ensures |r| >= 4 * |papers|
    decreases |papers|
  {
    if |papers| == 0 then []
    else ObjectKeywordPaperLines(parse, papers[0]) + SummarizeObjectKeywords(parse, papers[1..])
  }

  /** Each paper's lines in the object-only format. */
  function ObjectKeywordPaperLinesOf(parse: string -> Doc): Paper -> seq<string>
  {
    p => ObjectKeywordPaperLines(parse, p)
  }

  /** The object-only printout is each paper's block, one after another. */
  lemma {:induction false} SummarizeObjectKeywordsBlocks(parse: string -> Doc, papers: seq<Paper>)
    ensures SummarizeObjectKeywords(parse, papers) == FlatMap(ObjectKeywordPaperLinesOf(parse), papers)
    decreases |papers|
  {
    if |papers| > 0 {
      SummarizeObjectKeywordsBlocks(parse, papers[1..]);
    }
  }

  /** The object-only printout of two lists of papers one after the other is
      the printout of the first list followed by that of the second. */
  lemma SummarizeObjectKeywordsAppend(parse: string -> Doc, a: seq<Paper>, b: seq<Paper>)
    ensures SummarizeObjectKeywords(parse, a + b)
      == SummarizeObjectKeywords(parse, a) + SummarizeObjectKeywords(parse, b)
  {
    SummarizeObjectKeywordsBlocks(parse, a + b);
    SummarizeObjectKeywordsBlocks(parse, a);
    SummarizeObjectKeywordsBlocks(parse, b);
    FlatMapAppend(ObjectKeywordPaperLinesOf(parse), a, b);
  }

  /** The object-only printout of a single paper is that paper's block. */
  lemma SummarizeObjectKeywordsOne(parse: string -> Doc, p: Paper)
    ensures SummarizeObjectKeywords(parse, [p]) == ObjectKeywordPaperLines(parse, p)
  {
    assert [p][1..] == [];
  }

  /** No line but the last of a paper's block is a separator: every other line
      starts with a letter or a dash. */
  lemma PaperBlockOneSeparator(p: Paper, keywords: seq<WordCount>, svos: seq<Triple>)
    ensures multiset(PaperBlock(p, keywords, svos))[Separator()] == 1
  {
    var r := PaperBlock(p, keywords, svos);
    var body := r[..|r| - 1];
    assert r == body + [Separator()];
    forall k | 0 <= k < |body|
      ensures body[k] != Separator()
    {
      assert body[k] == r[k];
      if k < 3 + |keywords| && k >= 3 {
        assert r[k] == KeywordLine(keywords[k - 3]);
      } else if k > 3 + |keywords| {
        assert r[k] == SvoLine(svos[k - 4 - |keywords|]);
      } else if k == 0 {
        assert r[k][..7] == "Title: ";
      } else if k == 1 {
        assert r[k][..9] == "Authors: ";
      }
      assert |r[k]| > 0 && r[k][0] != '=';
    }
    assert Separator() !in body;
  }

  lemma ObjectKeywordBlockOneSeparator(p: Paper, keywords: seq<string>)
    ensures multiset(ObjectKeywordBlock(p, keywords))[Separator()] == 1
  {
    var r := ObjectKeywordBlock(p, keywords);
    var body := r[..|r| - 1];
    assert r == body + [Separator()];
    forall k | 0 <= k < |body|
      ensures body[k] != Separator()
    {
      assert |body[k]| > 0 && body[k][0] != '=';
    }
    assert Separator() !in body;
  }

  /** The printout holds exactly one separator per paper. */
  lemma {:induction false} SummarizePapersSeparators(parse: string -> Doc, papers: seq<Paper>)
    ensures multiset(SummarizePapers(parse, papers))[Separator()] == |papers|
    decreases |papers|
  {
    if |papers| > 0 {
      var summary := parse(papers[0].summary);
      PaperBlockOneSeparator(papers[0], ExtractKeywords(parse(PreprocessText(summary)), 10), ExtractSvo(summary));
      SummarizePapersSeparators(parse, papers[1..]);
    }
  }

  lemma {:induction false} SummarizeObjectKeywordsSeparators(parse: string -> Doc, papers: seq<Paper>)
    ensures multiset(SummarizeObjectKeywords(parse, papers))[Separator()] == |papers|
    decreases |papers|
  {
    if |papers| > 0 {
      var first := ObjectKeywordPaperLines(parse, papers[0]);
      var rest := SummarizeObjectKeywords(parse, papers[1..]);
      ObjectKeywordBlockOneSeparator(papers[0], Emphasize(ExtractSvo(parse(papers[0].summary))));
      assert multiset(first)[Separator()] == 1;
      SummarizeObjectKeywordsSeparators(parse, papers[1..]);
      assert SummarizeObjectKeywords(parse, papers) == first + rest;
    }
  }

  /** `line` is the bullet of the first object of token `i`. */
  ghost predicate NamesFirstObject(doc: Doc, i: nat, line: string)
  {
    exists o: nat :: FirstObjectOf(doc, o, i) && line == BulletLine(doc[o].text)
  }

  /** Bullet `k` of a block names the first object of root `k` when keyword
      `k` is that object's text. */
  lemma BulletOfFirstObject(p: Paper, doc: Doc, roots: seq<nat>, keywords: seq<string>, k: nat)
    requires FirstObjectsOf(doc, roots, keywords)
    requires k < |roots|
    ensures NamesFirstObject(doc, roots[k], ObjectKeywordBlock(p, keywords)[3 + k])
  {
    var o: nat :| FirstObjectOf(doc, o, roots[k]) && keywords[k] == doc[o].text;
    assert ObjectKeywordBlock(p, keywords)[3 + k] == BulletLine(doc[o].text);
  }

  /** A block whose keywords are the first objects of some roots has one
      bullet per root, naming its first object. */
  lemma BulletsOfFirstObjects(p: Paper, doc: Doc, roots: seq<nat>, keywords: seq<string>, r: seq<string>)
    requires FirstObjectsOf(doc, roots, keywords)
    requires r == ObjectKeywordBlock(p, keywords)
    ensures |r| == 4 + |roots|
    ensures forall k :: 0 <= k < |roots| ==> NamesFirstObject(doc, roots[k], r[3 + k])
  {
    forall k | 0 <= k < |roots|
      ensures NamesFirstObject(doc, roots[k], r[3 + k])
    {
      BulletOfFirstObject(p, doc, roots, keywords, k);
    }
  }

  /** In the object-only format, the bullets of a paper name, in token order,
      the first object of every ROOT of its summary that has a subject and an object. */
  lemma ObjectKeywordBullets(parse: string -> Doc, p: Paper)
    ensures var doc := parse(p.summary);
      var r := ObjectKeywordPaperLines(parse, p);
      var roots := Contributors(doc);
      && |r| == 4 + |roots|
      && forall k :: 0 <= k < |roots| ==> NamesFirstObject(doc, roots[k], r[3 + k])
  {
    var doc := parse(p.summary);
    var keywords := Emphasize(ExtractSvo(doc));
    EmphasizeExtract(doc);
    BulletsOfFirstObjects(p, doc, Contributors(doc), keywords, ObjectKeywordPaperLines(parse, p));
  }
}

=== FILE: seqs.dfy ===
/** Generic sequence facts: order-preserving subsequences, list-comprehension
    filtering, first occurrences and first-occurrence de-duplication. */
module Seqs {

  /** `r` is `s` with some elements left out and the rest kept in order. */
  predicate IsSubseq<T(==)>(r: seq<T>, s: seq<T>)
    decreases |s|
  {
    |r| == 0 || (|s| > 0 && if r[0] == s[0] then IsSubseq(r[1..], s[1..]) else IsSubseq(r, s[1..]))
  }

  /** `[x for x in s if keep(x)]`: an order-preserving subsequence holding exactly
      the elements that pass `keep`, each as often as in `s`. */
  function Filter<T(==,!new)>(s: seq<T>, keep: T -> bool): (r: seq<T>)
    ensures IsSubseq(r, s)
    ensures forall k :: 0 <= k < |r| ==> keep(r[k])
    ensures forall x :: keep(x) ==> multiset(r)[x] == multiset(s)[x]
    ensures forall x :: x in r <==> x in s && keep(x)
    decreases |s|
  {
    if |s| == 0 then []
    else
      var rest := Filter(s[1..], keep);
      assert s == [s[0]] + s[1..];
      if keep(s[0]) then [s[0]] + rest else rest
  }

  /** Filtering with a test every element passes keeps the whole sequence. */
  lemma {:induction false} FilterKeepsAll<T(!new)>(s: seq<T>, keep: T -> bool)
    requires forall k :: 0 <= k < |s| ==> keep(s[k])
    ensures Filter(s, keep) == s
    decreases |s|
  {
    if |s| > 0 {
      FilterKeepsAll(s[1..], keep);
    }
  }

  /** Strictly increasing positions. */
  predicate Ascending(idx: seq<nat>)
  {
    forall i, j :: 0 <= i < j < |idx| ==> idx[i] < idx[j]
  }

  /** The tail of an increasing list is increasing and above its head. */
  lemma AscendingTail(s: seq<nat>)
    requires |s| > 0 && Ascending(s)
    ensures Ascending(s[1..])
    ensures forall x :: x in s[1..] ==> s[0] < x
  {
    assert forall i :: 0 <= i < |s[1..]| ==> s[1..][i] == s[i + 1];
  }

  /** An increasing list stays increasing under a smaller head. */
  lemma AscendingCons(x: nat, s: seq<nat>)
    requires Ascending(s)
    requires forall y :: y in s ==> x < y
    ensures Ascending([x] + s)
  {
    var r := [x] + s;
    forall i, j | 0 <= i < j < |r|
      ensures r[i] < r[j]
    {
      assert r[j] == s[j - 1] && r[j] in s;
      if i > 0 {
        assert r[i] == s[i - 1];
      }
    }
  }

  /** In an increasing list the smaller of two elements stands at the smaller index. */
  lemma AscendingIndexOrder(s: seq<nat>, a: nat, b: nat)
    requires Ascending(s) && a < |s| && b < |s|
    ensures s[a] < s[b] <==> a < b
  {
  }

  /** The blocks `f(x)` of the elements of `s`, one after another. */
  function FlatMap<T, U>(f: T -> seq<U>, s: seq<T>): (r: seq<U>)
    decreases |s|
  {
    if |s| == 0 then [] else f(s[0]) + FlatMap(f, s[1..])
  }

  /** The blocks of two sequences one after the other are the blocks of the
      first followed by those of the second. */
  lemma {:induction false} FlatMapAppend<T, U>(f: T -> seq<U>, a: seq<T>, b: seq<T>)
    ensures FlatMap(f, a + b) == FlatMap(f, a) + FlatMap(f, b)
    decreases |a|
  {
    if |a| == 0 {
      assert a + b == b;
    } else {
      assert (a + b)[0] == a[0] && (a + b)[1..] == a[1..] + b;
      FlatMapAppend(f, a[1..], b);
    }
  }

  predicate NoDuplicates<T(==)>(s: seq<T>)
  {
    forall i, j :: 0 <= i < j < |s| ==> s[i] != s[j]
  }

  /** `s.index(x)`: the position of the first occurrence of `x`. */
  function FirstIndex<T(==)>(s: seq<T>, x: T): (i: nat)
    requires x in s
    ensures i < |s| && s[i] == x
    ensures forall k :: 0 <= k < i ==> s[k] != x
    decreases |s|
  {
    if s[0] == x then 0 else 1 + FirstIndex(s[1..], x)
  }

  /** Extending a sequence does not move the first occurrence of an element
      that is already there. */
  lemma FirstIndexInPrefix<T>(s: seq<T>, n: nat, x: T)
    requires n <= |s| && x in s[..n]
    ensures FirstIndex(s, x) == FirstIndex(s[..n], x)
  {
    var a := FirstIndex(s, x);
    var b := FirstIndex(s[..n], x);
    assert s[b] == x;
    assert a <= b;
    assert s[..n][a] == s[a];
  }

  /** The distinct elements of `s` in order of first occurrence (the key order
      of a Python `dict` or `Counter` built from `s`). */
  function Dedup<T(==,!new)>(s: seq<T>): (r: seq<T>)
    ensures NoDuplicates(r)
    ensures forall x :: x in r <==> x in s
    decreases |s|
  {
    if |s| == 0 then []
    else
      var d := Dedup(s[..|s| - 1]);
      var last := s[|s| - 1];
      assert s == s[..|s| - 1] + [last];
      if last in d then d else d + [last]
  }

  /** The elements of `Dedup(s)` stand in the order of their first occurrences in `s`. */
  lemma {:induction false} DedupInFirstOccurrenceOrder<T(!new)>(s: seq<T>)
    ensures forall i, j :: 0 <= i < j < |Dedup(s)| ==> FirstIndex(s, Dedup(s)[i]) < FirstIndex(s, Dedup(s)[j])
    decreases |s|
  {
    if |s| > 0 {
      var init := s[..|s| - 1];
      var last := s[|s| - 1];
      var d := Dedup(init);
      DedupInFirstOccurrenceOrder(init);
      assert s == init + [last];
      assert forall i :: 0 <= i < |d| ==> d[i] in d;
      assert forall k :: 0 <= k < |init| ==> init[k] in init;
      DedupFirstIndices(s, d);
    }
  }

  /** Helper for `DedupInFirstOccurrenceOrder`: the first occurrences in `s` of
      the distinct elements of all but its last element, and of the last
      element when it is new. */
  lemma DedupFirstIndices<T(!new)>(s: seq<T>, d: seq<T>)
    requires |s| > 0
    requires forall i :: 0 <= i < |d| ==> d[i] in s[..|s| - 1]
    requires forall k :: 0 <= k < |s| - 1 ==> s[k] in d
    requires forall i, j :: 0 <= i < j < |d| ==> FirstIndex(s[..|s| - 1], d[i]) < FirstIndex(s[..|s| - 1], d[j])
    ensures forall i :: 0 <= i < |d| ==> FirstIndex(s, d[i]) == FirstIndex(s[..|s| - 1], d[i]) < |s| - 1
    ensures forall i, j :: 0 <= i < j < |d| ==> FirstIndex(s, d[i]) < FirstIndex(s, d[j])
    ensures s[|s| - 1] !in d ==> FirstIndex(s, s[|s| - 1]) == |s| - 1
  {
    var n := |s| - 1;
    forall i | 0 <= i < |d|
      ensures FirstIndex(s, d[i]) == FirstIndex(s[..n], d[i]) < n
    {
      FirstIndexInPrefix(s, n, d[i]);
    }
  }
}

=== FILE: stable_sort.dfy ===
/** Python's `sorted(xs, key=key, reverse=True)`, which is stable, described on
    positions: the result lists the indices of `xs` so that larger keys come
    first and equal keys keep their input order. `Counter.most_common` and the
    keyword ranking of papers are both this sort. */
module StableSort {
  import opened Seqs

  /** Position `a` is listed before position `b`: a larger key, or an equal key
      and an earlier position. A strict total order on positions. */
  predicate Precedes(keys: seq<int>, a: nat, b: nat)
    requires a < |keys| && b < |keys|
  {
    keys[a] > keys[b] || (keys[a] == keys[b] && a < b)
  }

  predicate InBounds(keys: seq<int>, order: seq<nat>)
  {
    forall k :: 0 <= k < |order| ==> order[k] < |keys|
  }

  predicate Ordered(keys: seq<int>, order: seq<nat>)
    requires InBounds(keys, order)
  {
    forall i, j :: 0 <= i < j < |order| ==> Precedes(keys, order[i], order[j])
  }

  /** `[0, 1, ..., n - 1]` */
  function Range(n: nat): (r: seq<nat>)
    ensures |r| == n
    ensures forall i :: 0 <= i < n ==> r[i] == i
  {
    seq(n, i requires 0 <= i < n => i)
  }

  /** `order` lists every position of `keys` exactly once, stably by descending key. */
  predicate IsStableDescending(keys: seq<int>, order: seq<nat>)
  {
    && multiset(order) == multiset(Range(|keys|))
    && InBounds(keys, order)
    && Ordered(keys, order)
  }

  /** Puts position `x` into an ordered list of other positions. */
  function Insert(keys: seq<int>, x: nat, order: seq<nat>): (r: seq<nat>)
    requires x < |keys| && InBounds(keys, order) && Ordered(keys, order) && x !in order
    ensures InBounds(keys, r) && Ordered(keys, r)
    ensures multiset(r) == multiset(order) + multiset{x}
    decreases |order|
  {
    if |order| == 0 then [x]
    else if Precedes(keys, x, order[0]) then [x] + order
    else
      var rest := Insert(keys, x, order[1..]);
      assert order == [order[0]] + order[1..];
      InsertAfterHead(keys, x, order, rest);
      [order[0]] + rest
  }

  /** Helper for `Insert`: the head of `order` precedes everything in the
      insertion into its tail when it precedes `x`. */
  lemma InsertAfterHead(keys: seq<int>, x: nat, order: seq<nat>, rest: seq<nat>)
    requires x < |keys| && |order| > 0 && InBounds(keys, order) && Ordered(keys, order)
    requires x != order[0] && !Precedes(keys, x, order[0])
    requires InBounds(keys, rest) && multiset(rest) == multiset(order[1..]) + multiset{x}
    ensures forall j :: 0 <= j < |rest| ==> Precedes(keys, order[0], rest[j])
  {
    forall j | 0 <= j < |rest|
      ensures Precedes(keys, order[0], rest[j])
    {
      assert rest[j] in multiset(rest);
      if rest[j] != x {
        assert rest[j] in order[1..];
      }
    }
  }

  /** Insertion sort of a list of distinct positions. */
  function Sort(keys: seq<int>, idx: seq<nat>): (r: seq<nat>)
    requires InBounds(keys, idx) && NoDuplicates(idx)
    ensures InBounds(keys, r) && Ordered(keys, r)
    ensures multiset(r) == multiset(idx)
    decreases |idx|
  {
    if |idx| == 0 then []
    else
      var rest := Sort(keys, idx[1..]);
      assert idx[0] !in multiset(idx[1..]);
      assert idx == [idx[0]] + idx[1..];
      Insert(keys, idx[0], rest)
  }

  /** The positions of `keys`, stably sorted by descending key. */
  function RankOrder(keys: seq<int>): (r: seq<nat>)
    ensures |r| == |keys|
    ensures IsStableDescending(keys, r)
  {
    var r := Sort(keys, Range(|keys|));
    assert |r| == |multiset(r)| == |multiset(Range(|keys|))| == |keys|;
    r
  }

  /** Facts every stable descending order has: each position appears, none twice. */
  lemma StableDescendingFacts(keys: seq<int>, order: seq<nat>)
    requires IsStableDescending(keys, order)
    ensures |order| == |keys|
    ensures NoDuplicates(order)
    ensures forall p :: 0 <= p < |keys| ==> p in order
  {
    assert |order| == |multiset(order)| == |multiset(Range(|keys|))| == |keys|;
    forall p | 0 <= p < |keys|
      ensures p in order
    {
      assert Range(|keys|)[p] == p;
      assert p in multiset(Range(|keys|));
    }
  }

  /** The head of an ordered list precedes every other element of it. */
  lemma HeadPrecedes(keys: seq<int>, a: seq<nat>, x: nat)
    requires InBounds(keys, a) && Ordered(keys, a) && x in a
    ensures x == a[0] || (x < |keys| && Precedes(keys, a[0], x))
  {
    var k :| 0 <= k < |a| && a[k] == x;
    assert k == 0 || Precedes(keys, a[0], a[k]);
  }

  /** Dropping the head of an ordered list leaves an ordered list with one
      copy of the head fewer. */
  lemma OrderedTail(keys: seq<int>, a: seq<nat>)
    requires |a| > 0 && InBounds(keys, a) && Ordered(keys, a)
    ensures InBounds(keys, a[1..]) && Ordered(keys, a[1..])
    ensures multiset(a[1..]) == multiset(a) - multiset{a[0]}
  {
    assert a == [a[0]] + a[1..];
    forall i, j | 0 <= i < j < |a[1..]|
      ensures Precedes(keys, a[1..][i], a[1..][j])
    {
      assert a[1..][i] == a[i + 1] && a[1..][j] == a[j + 1];
    }
  }

  /** Two ordered lists of the same positions are the same list. */
  lemma {:induction false} OrderedUnique(keys: seq<int>, a: seq<nat>, b: seq<nat>)
    requires InBounds(keys, a) && Ordered(keys, a)
    requires InBounds(keys, b) && Ordered(keys, b)
    requires multiset(a) == multiset(b)
    ensures a == b
    decreases |a|
  {
    assert |a| == |multiset(a)| == |multiset(b)| == |b|;
    if |a| > 0 {
      assert a[0] in multiset(b);
      assert b[0] in multiset(a);
      HeadPrecedes(keys, b, a[0]);
      HeadPrecedes(keys, a, b[0]);
      OrderedTail(keys, a);
      OrderedTail(keys, b);
      OrderedUnique(keys, a[1..], b[1..]);
    }
  }

  /** The stable descending order is unique, so `RankOrder` is the one any
      stable sort by descending key produces. */
  lemma RankOrderIsTheStableSort(keys: seq<int>, order: seq<nat>)
    requires IsStableDescending(keys, order)
    ensures order == RankOrder(keys)
  {
    OrderedUnique(keys, order, RankOrder(keys));
  }
  /** `[s[i] for i in order]` */
  function Apply<T>(s: seq<T>, order: seq<nat>): (r: seq<T>)
    requires forall k :: 0 <= k < |order| ==> order[k] < |s|
    ensures |r| == |order|
  {
    seq(|order|, k requires 0 <= k < |order| => s[order[k]])
  }

  /** Dropping position `m` of `b` removes one copy of `b[m]`. */
  lemma MultisetRemoveAt<T>(b: seq<T>, m: nat)
    requires m < |b|
    ensures multiset(b[..m] + b[m + 1..]) == multiset(b) - multiset{b[m]}
  {
    assert b == b[..m] + [b[m]] + b[m + 1..];
  }

  lemma ApplyAppend<T>(s: seq<T>, x: seq<nat>, y: seq<nat>)
    requires forall k :: 0 <= k < |x| ==> x[k] < |s|
    requires forall k :: 0 <= k < |y| ==> y[k] < |s|
    ensures Apply(s, x + y) == Apply(s, x) + Apply(s, y)
  {
  }

  /** Moving one position from the front of a list into the middle leaves the
      elements read through it unchanged, up to order. */
  lemma ApplyMoveOne<T>(s: seq<T>, a: seq<nat>, b: seq<nat>, m: nat)
    requires 0 < |a| && m < |b| && a[0] == b[m]
    requires forall k :: 0 <= k < |a| ==> a[k] < |s|
    requires forall k :: 0 <= k < |b| ==> b[k] < |s|
    requires multiset(Apply(s, a[1..])) == multiset(Apply(s, b[..m] + b[m + 1..]))
    ensures multiset(Apply(s, a)) == multiset(Apply(s, b))
  {
    var x, tail, pre, post := a[0], a[1..], b[..m], b[m + 1..];
    assert a == [x] + tail;
    assert b == pre + [x] + post;
    ApplyAppend(s, [x], tail);
    ApplyAppend(s, pre, post);
    ApplyAppend(s, pre + [x], post);
    ApplyAppend(s, pre, [x]);
    var y := Apply(s, [x]);
    calc {
      multiset(Apply(s, a));
      multiset(y + Apply(s, tail));
      multiset(y) + multiset(Apply(s, pre + post));
      multiset(y) + multiset(Apply(s, pre) + Apply(s, post));
      multiset(Apply(s, pre) + y + Apply(s, post));
      multiset(Apply(s, b));
    }
  }

  /** Reading `s` through two position lists holding the same positions gives
      the same elements, each as often. */
  lemma {:induction false} ApplySameMultiset<T>(s: seq<T>, a: seq<nat>, b: seq<nat>)
    requires forall k :: 0 <= k < |a| ==> a[k] < |s|
    requires forall k :: 0 <= k < |b| ==> b[k] < |s|
    requires multiset(a) == multiset(b)
    ensures multiset(Apply(s, a)) == multiset(Apply(s, b))
    decreases |a|
  {
    assert |a| == |multiset(a)| == |multiset(b)| == |b|;
    if |a| > 0 {
      assert a[0] in multiset(b);
      var m :| 0 <= m < |b| && b[m] == a[0];
      MultisetRemoveAt(b, m);
      assert a == [a[0]] + a[1..];
      assert multiset(a[1..]) == multiset(b[..m] + b[m + 1..]);
      ApplySameMultiset(s, a[1..], b[..m] + b[m + 1..]);
      ApplyMoveOne(s, a, b, m);
    }
  }

  /** Listing `s` in a stable descending order of its keys permutes `s`. */
  lemma ApplyStableDescending<T>(s: seq<T>, keys: seq<int>, order: seq<nat>)
    requires |keys| == |s| && IsStableDescending(keys, order)
    ensures multiset(Apply(s, order)) == multiset(s)
  {
    ApplySameMultiset(s, order, Range(|s|));
    assert Apply(s, Range(|s|)) == s;
  }
}

=== FILE: svo.dfy ===
/** Subject-verb-object extraction over a parsed document, and the projection
    of the extracted triples onto their objects. */
module Svo {
  import opened Seqs
  import opened Options
  import opened Tokens

  /** `(subject, verb, object)` */
  datatype Triple = Triple(subject: string, verb: string, obj: string)

  /** The labels `nsubj` and `nsubjpass`. */
  const SubjectDeps: set<Dep> := {NSubj, NSubjPass}

  /** The labels `dobj`, `pobj` and `attr`. */
  const ObjectDeps: set<Dep> := {DObj, PObj, Attr}

  /** Token `s` is a left child of token `i` with a subject label. */
  predicate SubjectOf(doc: Doc, s: nat, i: nat)
  {
    s < i < |doc| && doc[s].head == i && doc[s].dep in SubjectDeps
  }

  /** Token `o` is a right child of token `i` with an object label. */
  predicate ObjectOf(doc: Doc, o: nat, i: nat)
  {
    i < o < |doc| && doc[o].head == i && doc[o].dep in ObjectDeps
  }

  predicate FirstSubjectOf(doc: Doc, s: nat, i: nat)
  {
    SubjectOf(doc, s, i) && forall k: nat | k < s :: !SubjectOf(doc, k, i)
  }

  predicate FirstObjectOf(doc: Doc, o: nat, i: nat)
  {
    ObjectOf(doc, o, i) && forall k: nat | k < o :: !ObjectOf(doc, k, i)
  }

  /** Token `i` is a ROOT with at least one subject and at least one object. */
  predicate HasSvo(doc: Doc, i: nat)
    requires i < |doc|
  {
    && doc[i].dep == Root
    && (exists s: nat | s < i :: SubjectOf(doc, s, i))
    && (exists o: nat | o < |doc| :: ObjectOf(doc, o, i))
  }

  /** `t` is the triple of the first subject of `i`, `i` itself and the first
      object of `i`. */
  ghost predicate IsTripleOf(doc: Doc, i: nat, t: Triple)
    requires i < |doc|
  {
    exists s: nat, o: nat ::
      && FirstSubjectOf(doc, s, i) && FirstObjectOf(doc, o, i)
      && t == Triple(doc[s].text, doc[i].text, doc[o].text)
  }

  /** `[w for w in idx if w.dep_ in deps]` on token indices. */
  function WithDep(doc: Doc, idx: seq<nat>, deps: set<Dep>): (r: seq<nat>)
    requires forall k :: 0 <= k < |idx| ==> idx[k] < |doc|
    ensures forall k :: 0 <= k < |r| ==> r[k] in idx && doc[r[k]].dep in deps
    ensures forall k :: 0 <= k < |idx| && doc[idx[k]].dep in deps ==> idx[k] in r
    decreases |idx|
  {
    if |idx| == 0 then []
    else
      var rest := WithDep(doc, idx[1..], deps);
      if doc[idx[0]].dep in deps then [idx[0]] + rest else rest
  }

  /** Selecting by label keeps increasing indices increasing. */
  lemma {:induction false} WithDepAscending(doc: Doc, idx: seq<nat>, deps: set<Dep>)
    requires forall k :: 0 <= k < |idx| ==> idx[k] < |doc|
    requires Ascending(idx)
    ensures Ascending(WithDep(doc, idx, deps))
    decreases |idx|
  {
    if |idx| > 0 {
      var tail := idx[1..];
      AscendingTail(idx);
      WithDepAscending(doc, tail, deps);
      if doc[idx[0]].dep in deps {
        AscendingCons(idx[0], WithDep(doc, tail, deps));
      }
    }
  }

  /** `[w.text for w in idx]` */
  function Texts(doc: Doc, idx: seq<nat>): (r: seq<string>)
    requires forall k :: 0 <= k < |idx| ==> idx[k] < |doc|
    ensures |r| == |idx|
  {
    seq(|idx|, k requires 0 <= k < |idx| => doc[idx[k]].text)
  }

  /** The subject-labelled left children of `i` are exactly its subjects, and
      the first of them is the earliest subject. */
  lemma SubjectCandidates(doc: Doc, i: nat)
    requires i < |doc|
    ensures var c := WithDep(doc, Lefts(doc, i), SubjectDeps);
      && (forall s: nat :: s in c <==> SubjectOf(doc, s, i))
      && (|c| > 0 ==> FirstSubjectOf(doc, c[0], i))
  {
    var lefts := Lefts(doc, i);
    var c := WithDep(doc, lefts, SubjectDeps);
    WithDepAscending(doc, lefts, SubjectDeps);
    forall s: nat | SubjectOf(doc, s, i)
      ensures s in c
    {
      var k :| 0 <= k < |lefts| && lefts[k] == s;
    }
    if |c| > 0 {
      forall s: nat | SubjectOf(doc, s, i)
        ensures c[0] <= s
      {
        var k :| 0 <= k < |c| && c[k] == s;
      }
    }
  }

  /** The object-labelled right children of `i` are exactly its objects, and
      the first of them is the earliest object. */
  lemma ObjectCandidates(doc: Doc, i: nat)
    requires i < |doc|
    ensures var c := WithDep(doc, Rights(doc, i), ObjectDeps);
      && (forall o: nat :: o in c <==> ObjectOf(doc, o, i))
      && (|c| > 0 ==> FirstObjectOf(doc, c[0], i))
  {
    var rights := Rights(doc, i);
    var c := WithDep(doc, rights, ObjectDeps);
    WithDepAscending(doc, rights, ObjectDeps);
    forall o: nat | ObjectOf(doc, o, i)
      ensures o in c
    {
      var k :| 0 <= k < |rights| && rights[k] == o;
    }
    if |c| > 0 {
      forall o: nat | ObjectOf(doc, o, i)
        ensures c[0] <= o
      {
        var k :| 0 <= k < |c| && c[k] == o;
      }
    }
  }

  /** What token `i` contributes to `extract_svo`: the texts of its subject-labelled
      left children and object-labelled right children are collected, and a ROOT
      with at least one of each gives the triple of the first of each. */
  function SvoAt(doc: Doc, i: nat): (r: Option<Triple>)
    requires i < |doc|
    ensures r.Some? ==> doc[i].dep == Root && r.value.verb == doc[i].text
  {
    if doc[i].dep != Root then None
    else
      var subjects := Texts(doc, WithDep(doc, Lefts(doc, i), SubjectDeps));
      var objects := Texts(doc, WithDep(doc, Rights(doc, i), ObjectDeps));
      if |subjects| > 0 && |objects| > 0 then Some(Triple(subjects[0], doc[i].text, objects[0]))
      else None
  }

  /** A token contributes a triple exactly when it is a ROOT with a subject on
      its left and an object on its right, and the triple is made of the
      earliest subject, the root and the earliest object. */
  lemma SvoAtSpec(doc: Doc, i: nat)
    requires i < |doc|
    ensures SvoAt(doc, i).Some? <==> HasSvo(doc, i)
    ensures SvoAt(doc, i).Some? ==> IsTripleOf(doc, i, SvoAt(doc, i).value)
  {
    SubjectCandidates(doc, i);
    ObjectCandidates(doc, i);
    if doc[i].dep == Root {
      var subjectIdx := WithDep(doc, Lefts(doc, i), SubjectDeps);
      var objectIdx := WithDep(doc, Rights(doc, i), ObjectDeps);
      if |subjectIdx| > 0 && |objectIdx| > 0 {
        assert FirstSubjectOf(doc, subjectIdx[0], i) && FirstObjectOf(doc, objectIdx[0], i);
      }
    }
  }

  lemma SvoAtSpecAll(doc: Doc)
    ensures forall i :: 0 <= i < |doc| ==> (SvoAt(doc, i).Some? <==> HasSvo(doc, i))
  {
    forall i | 0 <= i < |doc|
      ensures SvoAt(doc, i).Some? <==> HasSvo(doc, i)
    {
      SvoAtSpec(doc, i);
    }
  }

  /** The number of ROOT tokens among the first `n`. */
  function RootCount(doc: Doc, n: nat): nat
    requires n <= |doc|
  {
    if n == 0 then 0 else RootCount(doc, n - 1) + (if doc[n - 1].dep == Root then 1 else 0)
  }

  /** Increasing positions of ROOT tokens below `n` are no more than the ROOT tokens below `n`. */
  lemma {:induction false} AscendingRootsBound(doc: Doc, idx: seq<nat>, n: nat)
    requires n <= |doc| && Ascending(idx)
    requires forall k :: 0 <= k < |idx| ==> idx[k] < n && doc[idx[k]].dep == Root
    ensures |idx| <= RootCount(doc, n)
    decreases n
  {
    if |idx| > 0 {
      var last := |idx| - 1;
      var init := idx[..last];
      assert idx[last] < n;
      assert forall k :: 0 <= k < last ==> init[k] == idx[k] < idx[last];
      if idx[last] == n - 1 {
        AscendingRootsBound(doc, init, n - 1);
        assert doc[n - 1].dep == Root;
        assert |idx| == |init| + 1;
      } else {
        assert forall k :: 0 <= k < |idx| ==> idx[k] <= idx[last];
        AscendingRootsBound(doc, idx, n - 1);
      }
    }
  }

  /** What each token contributes, in token order. */
  function Emissions(doc: Doc): (e: seq<Option<Triple>>)
    ensures |e| == |doc|
  {
    seq(|doc|, i requires 0 <= i < |doc| => SvoAt(doc, i))
  }

  /** The tokens that contribute a triple, in index order. */
  function Contributors(doc: Doc): (r: seq<nat>)
    ensures Ascending(r)
    ensures forall k :: 0 <= k < |r| ==> r[k] < |doc| && HasSvo(doc, r[k])
    ensures forall i :: 0 <= i < |doc| && HasSvo(doc, i) ==> i in r
  {
    var e := Emissions(doc);
    assert forall i :: 0 <= i < |doc| ==> e[i] == SvoAt(doc, i);
    SvoAtSpecAll(doc);
    SomeIndices(e)
  }

  /** `svos` holds, position by position, the triple each token of `roots` contributes. */
  predicate TriplesOf(doc: Doc, roots: seq<nat>, svos: seq<Triple>)
  {
    && |svos| == |roots|
    && forall k :: 0 <= k < |roots| ==> roots[k] < |doc| && SvoAt(doc, roots[k]) == Some(svos[k])
  }

  /** The collected triples line up with the contributing tokens. */
  lemma ExtractedTriples(doc: Doc)
    ensures TriplesOf(doc, Contributors(doc), Somes(Emissions(doc)))
  {
    var e := Emissions(doc);
    SomesAtSomeIndices(e);
  }

  /** Only ROOT tokens contribute, so there are no more triples than ROOT tokens. */
  lemma ExtractedBound(doc: Doc)
    ensures |Somes(Emissions(doc))| <= RootCount(doc, |doc|)
  {
    var e := Emissions(doc);
    var c := SomeIndices(e);
    SomesAtSomeIndices(e);
    assert forall k :: 0 <= k < |c| ==> e[c[k]] == SvoAt(doc, c[k]);
    AscendingRootsBound(doc, c, |doc|);
  }

  /** `extract_svo`: one triple per ROOT that has both a subject and an object,
      in token order, so no more triples than ROOT tokens. */
  function ExtractSvo(doc: Doc): (r: seq<Triple>)
    ensures |r| <= RootCount(doc, |doc|)
    ensures TriplesOf(doc, Contributors(doc), r)
  {
    ExtractedTriples(doc);
    ExtractedBound(doc);
    Somes(Emissions(doc))
  }

  /** `emphasize_keywords`: the object of every triple, in order. */
  function Emphasize(svos: seq<Triple>): (r: seq<string>)
    ensures |r| == |svos|
    ensures forall k :: 0 <= k < |r| ==> r[k] == svos[k].obj
  {
    if |svos| == 0 then [] else Emphasize(svos[..|svos| - 1]) + [svos[|svos| - 1].obj]
  }

  /** `words[k]` is the text of the first object of the ROOT `roots[k]`, for every `k`. */
  ghost predicate FirstObjectsOf(doc: Doc, roots: seq<nat>, words: seq<string>)
  {
    && |words| == |roots|
    && forall k :: 0 <= k < |roots| ==>
         && roots[k] < |doc| && doc[roots[k]].dep == Root
         && exists o: nat :: FirstObjectOf(doc, o, roots[k]) && words[k] == doc[o].text
  }

  /** Emphasizing the extracted triples lists, in token order, the first object
      of every root that has both a subject and an object. */
  lemma EmphasizeExtract(doc: Doc)
    ensures FirstObjectsOf(doc, Contributors(doc), Emphasize(ExtractSvo(doc)))
  {
    var svos := ExtractSvo(doc);
    var roots := Contributors(doc);
    forall k | 0 <= k < |svos|
      ensures doc[roots[k]].dep == Root
      ensures exists o: nat :: FirstObjectOf(doc, o, roots[k]) && svos[k].obj == doc[o].text
    {
      SvoAtSpec(doc, roots[k]);
    }
  }

  /** A five-token sentence such as "Researchers study climate models." as
      the parser labels it: a subject, the root, a modifier of the object,
      the direct object and the full stop. */
  function SentenceDoc(subject: string, verb: string, modifier: string, obj: string): Doc
  {
    [ Token(subject, true, false, NSubj, 1),
      Token(verb, true, false, Root, 1),
      Token(modifier, true, false, OtherDep, 3),
      Token(obj, true, false, DObj, 1),
      Token(".", false, false, OtherDep, 1) ]
  }

  /** The root's children: the subject on its left, the object and the full
      stop on its right. */
  lemma SentenceChildren(subject: string, verb: string, modifier: string, obj: string)
    ensures var doc := SentenceDoc(subject, verb, modifier, obj);
      Lefts(doc, 1) == [0] && Rights(doc, 1) == [3, 4]
  {
    var doc := SentenceDoc(subject, verb, modifier, obj);
    assert ChildrenIn(doc, 1, 1, 1) == [];
    assert ChildrenIn(doc, 1, 5, 5) == [];
    assert ChildrenIn(doc, 1, 4, 5) == [4];
    assert ChildrenIn(doc, 1, 3, 5) == [3, 4];
  }

  /** The root has the subject on its left and the object (and the full stop)
      on its right. */
  lemma SentenceRoot(subject: string, verb: string, modifier: string, obj: string)
    ensures SvoAt(SentenceDoc(subject, verb, modifier, obj), 1) == Some(Triple(subject, verb, obj))
  {
    var doc := SentenceDoc(subject, verb, modifier, obj);
    SentenceChildren(subject, verb, modifier, obj);
    assert WithDep(doc, [0], SubjectDeps) == [0];
    assert WithDep(doc, [3, 4], ObjectDeps) == [3] by {
      assert WithDep(doc, [4], ObjectDeps) == [];
    }
  }

  /** The tokens other than the root contribute nothing. */
  lemma SentenceNonRoots(subject: string, verb: string, modifier: string, obj: string)
    ensures var doc := SentenceDoc(subject, verb, modifier, obj);
      SvoAt(doc, 0) == None && SvoAt(doc, 2) == None && SvoAt(doc, 3) == None && SvoAt(doc, 4) == None
  {
    var doc := SentenceDoc(subject, verb, modifier, obj);
    assert doc[0].dep != Root && doc[2].dep != Root && doc[3].dep != Root && doc[4].dep != Root;
  }

  /** Only the root of the sentence contributes. */
  lemma SentenceEmissions(subject: string, verb: string, modifier: string, obj: string)
    ensures Emissions(SentenceDoc(subject, verb, modifier, obj))
      == [None, Some(Triple(subject, verb, obj)), None, None, None]
  {
    var doc := SentenceDoc(subject, verb, modifier, obj);
    var e := Emissions(doc);
    SentenceRoot(subject, verb, modifier, obj);
    SentenceNonRoots(subject, verb, modifier, obj);
    assert e[0] == SvoAt(doc, 0) && e[1] == SvoAt(doc, 1) && e[2] == SvoAt(doc, 2);
    assert e[3] == SvoAt(doc, 3) && e[4] == SvoAt(doc, 4);
    assert e == [e[0], e[1], e[2], e[3], e[4]];
  }

  /** The sentence yields the one triple of its root. */
  lemma ExampleSentence(subject: string, verb: string, modifier: string, obj: string)
    ensures ExtractSvo(SentenceDoc(subject, verb, modifier, obj)) == [Triple(subject, verb, obj)]
  {
    var t := Triple(subject, verb, obj);
    SentenceEmissions(subject, verb, modifier, obj);
    var e: seq<Option<Triple>> := [None, Some(t), None, None, None];
    assert e[..1] == [None];
    assert e[..2] == [None, Some(t)];
    assert e[..3] == [None, Some(t), None];
    assert e[..4] == [None, Some(t), None, None];
    assert Somes(e[..1]) == [];
    assert Somes(e[..2]) == [t] by { assert e[..2][..1] == e[..1]; }
    assert Somes(e[..3]) == [t] by { assert e[..3][..2] == e[..2]; }
    assert Somes(e[..4]) == [t] by { assert e[..4][..3] == e[..3]; }
    assert e[..5] == e;
  }

  /** A root with two subjects on its left, the first labelled `nsubj` and the
      second `nsubjpass`, and one direct object. */
  function TwoSubjectsDoc(first: string, second: string, verb: string, obj: string): Doc
  {
    [ Token(first, true, false, NSubj, 2),
      Token(second, true, false, NSubjPass, 2),
      Token(verb, true, false, Root, 2),
      Token(obj, true, false, DObj, 2) ]
  }

  /** The root's children: both subjects on its left, the object on its right. */
  lemma TwoSubjectsChildren(first: string, second: string, verb: string, obj: string)
    ensures var doc := TwoSubjectsDoc(first, second, verb, obj);
      Lefts(doc, 2) == [0, 1] && Rights(doc, 2) == [3]
  {
    var doc := TwoSubjectsDoc(first, second, verb, obj);
    assert ChildrenIn(doc, 2, 2, 2) == [];
    assert ChildrenIn(doc, 2, 1, 2) == [1];
    assert ChildrenIn(doc, 2, 4, 4) == [];
    assert ChildrenIn(doc, 2, 3, 4) == [3];
  }

  /** Of two subjects of one root, the earlier one is used. */
  lemma TwoSubjectsRoot(first: string, second: string, verb: string, obj: string)
    ensures SvoAt(TwoSubjectsDoc(first, second, verb, obj), 2) == Some(Triple(first, verb, obj))
  {
    var doc := TwoSubjectsDoc(first, second, verb, obj);
    TwoSubjectsChildren(first, second, verb, obj);
    assert WithDep(doc, [0, 1], SubjectDeps) == [0, 1] by {
      assert WithDep(doc, [1], SubjectDeps) == [1];
    }
    assert WithDep(doc, [3], ObjectDeps) == [3];
  }

  lemma TwoSubjectsNonRoots(first: string, second: string, verb: string, obj: string)
    ensures var doc := TwoSubjectsDoc(first, second, verb, obj);
      SvoAt(doc, 0) == None && SvoAt(doc, 1) == None && SvoAt(doc, 3) == None
  {
    var doc := TwoSubjectsDoc(first, second, verb, obj);
    assert doc[0].dep != Root && doc[1].dep != Root && doc[3].dep != Root;
  }

  lemma TwoSubjectsEmissions(first: string, second: string, verb: string, obj: string)
    ensures Emissions(TwoSubjectsDoc(first, second, verb, obj)) == [None, None, Some(Triple(first, verb, obj)), None]
  {
    var doc := TwoSubjectsDoc(first, second, verb, obj);
    var e := Emissions(doc);
    TwoSubjectsRoot(first, second, verb, obj);
    TwoSubjectsNonRoots(first, second, verb, obj);
    assert e[0] == SvoAt(doc, 0) && e[1] == SvoAt(doc, 1) && e[2] == SvoAt(doc, 2) && e[3] == SvoAt(doc, 3);
    assert e == [e[0], e[1], e[2], e[3]];
  }

  lemma ExampleFirstSubject(first: string, second: string, verb: string, obj: string)
    ensures ExtractSvo(TwoSubjectsDoc(first, second, verb, obj)) == [Triple(first, verb, obj)]
  {
    var t := Triple(first, verb, obj);
    TwoSubjectsEmissions(first, second, verb, obj);
    var e: seq<Option<Triple>> := [None, None, Some(t), None];
    assert e[..1] == [None];
    assert e[..2] == [None, None];
    assert e[..3] == [None, None, Some(t)];
    assert Somes(e[..1]) == [];
    assert Somes(e[..2]) == [] by { assert e[..2][..1] == e[..1]; }
    assert Somes(e[..3]) == [t] by { assert e[..3][..2] == e[..2]; }
    assert e[..4] == e;
  }
}

=== FILE: text.dfy ===
/** String helpers standing in for the Python `str` methods the core uses:
    `lower`, `join`, `in` (substring), `count`, `*` and `str(int)`. `Split` is
    not used by the program; it reads joined text back in the round-trip lemmas. */
module Text {

  /** Lower-casing of one character. Only ASCII letters are mapped; every other
      character is left unchanged, so lower-casing never changes a length. */
  function ToLowerChar(c: char): char
  {
    if 'A' <= c <= 'Z' then (c as int + 32) as char else c
  }

  predicate IsUpperAscii(c: char)
  {
    'A' <= c <= 'Z'
  }

  /** `s.lower()` */
  function ToLower(s: string): (r: string)
    ensures |r| == |s|
    ensures forall i :: 0 <= i < |r| ==> !IsUpperAscii(r[i])
    ensures forall i :: 0 <= i < |s| && !IsUpperAscii(s[i]) ==> r[i] == s[i]
    ensures forall i :: 0 <= i < |s| && IsUpperAscii(s[i]) ==> r[i] as int == s[i] as int + 32
  {
    seq(|s|, i requires 0 <= i < |s| => ToLowerChar(s[i]))
  }

  /** Lower-casing twice is lower-casing once. */
  lemma ToLowerIdempotent(s: string)
    ensures ToLower(ToLower(s)) == ToLower(s)
  {
  }

  /** The lengths of the parts, added up. */
  function TotalLength(parts: seq<string>): nat
    decreases |parts|
  {
    if |parts| == 0 then 0 else |parts[0]| + TotalLength(parts[1..])
  }

  /** `sep.join(parts)`: the parts in order with `sep` between neighbours, so
      it starts with the first part and is as long as the parts plus one
      separator fewer than there are parts. */
  function Join(sep: string, parts: seq<string>): (r: string)
    ensures |parts| == 0 ==> r == ""
    ensures |parts| > 0 ==> parts[0] <= r
    ensures |parts| > 0 ==> |r| == TotalLength(parts) + (|parts| - 1) * |sep|
    decreases |parts|
  {
    if |parts| == 0 then ""
    else if |parts| == 1 then parts[0]
    else
      var rest := Join(sep, parts[1..]);
      MulSucc(|parts| - 2, |sep|);
      parts[0] + sep + rest
  }

  /** Where part `k` starts in `sep.join(parts)`: after the `k` earlier parts
      and the `k` separators that follow them. */
  function JoinStart(sep: string, parts: seq<string>, k: nat): nat
    requires k <= |parts|
  {
    TotalLength(parts[..k]) + k * |sep|
  }

  /** Part `k` of the tail starts one part and one separator later in the whole. */
  lemma JoinStartStep(sep: string, parts: seq<string>, k: nat)
    requires 0 < k <= |parts|
    ensures JoinStart(sep, parts, k) == |parts[0]| + |sep| + JoinStart(sep, parts[1..], k - 1)
  {
    assert parts[..k][1..] == parts[1..][..k - 1];
    MulSucc(k - 1, |sep|);
  }

  /** The head of a join of two or more parts: the first part, then the separator. */
  lemma JoinHead(sep: string, parts: seq<string>)
    requires |parts| > 1
    ensures OccursAt(Join(sep, parts), parts[0], 0)
    ensures OccursAt(Join(sep, parts), sep, |parts[0]|)
  {
    var rest := sep + Join(sep, parts[1..]);
    assert Join(sep, parts) == parts[0] + rest;
    assert OccursAt(rest, sep, 0);
    OccursAfterPrefix(parts[0], rest, sep, 0);
  }

  /** The layout of `sep.join(parts)`: part `k` occurs at `JoinStart(sep, parts, k)`,
      and unless it is the last part the separator follows it directly. */
  lemma {:induction false} JoinLayout(sep: string, parts: seq<string>, k: nat)
    requires k < |parts|
    ensures OccursAt(Join(sep, parts), parts[k], JoinStart(sep, parts, k))
    ensures k + 1 < |parts| ==> OccursAt(Join(sep, parts), sep, JoinStart(sep, parts, k) + |parts[k]|)
    decreases k
  {
    if k == 0 {
      assert parts[..0] == [];
      if |parts| > 1 {
        JoinHead(sep, parts);
      }
    } else {
      var pre := parts[0] + sep;
      var rest := Join(sep, parts[1..]);
      assert Join(sep, parts) == pre + rest;
      JoinLayout(sep, parts[1..], k - 1);
      JoinStartStep(sep, parts, k);
      var b := JoinStart(sep, parts[1..], k - 1);
      assert parts[1..][k - 1] == parts[k];
      OccursAfterPrefix(pre, rest, parts[k], b);
      if k + 1 < |parts| {
        OccursAfterPrefix(pre, rest, sep, b + |parts[k]|);
      }
    }
  }

  /** Python's `s.split(c)` for a one-character separator, used only to read
      joined text back: the pieces between separators,
      empty pieces included, so the empty string splits into one empty piece. */
  function Split(s: string, c: char): (r: seq<string>)
    ensures |r| > 0
    decreases |s|
  {
    if |s| == 0 then [""]
    else
      var rest := Split(s[1..], c);
      if s[0] == c then [""] + rest else [[s[0]] + rest[0]] + rest[1..]
  }

  /** Splitting a separator-free prefix glues it onto the first piece. */
  lemma {:induction false} SplitSeparatorFree(w: string, s: string, c: char)
    requires c !in w
    ensures Split(w + s, c) == [w + Split(s, c)[0]] + Split(s, c)[1..]
    decreases |w|
  {
    if |w| > 0 {
      assert (w + s)[1..] == w[1..] + s;
      SplitSeparatorFree(w[1..], s, c);
      assert [w[0]] + (w[1..] + Split(s, c)[0]) == w + Split(s, c)[0];
    } else {
      var r := Split(s, c);
      assert w + s == s;
      assert w + r[0] == r[0];
      assert r == [r[0]] + r[1..];
    }
  }

  /** Joining with one character undoes splitting on it. */
  lemma {:induction false} JoinSplit(s: string, c: char)
    ensures Join([c], Split(s, c)) == s
    decreases |s|
  {
    if |s| > 0 {
      var rest := Split(s[1..], c);
      JoinSplit(s[1..], c);
      if s[0] == c {
        assert Split(s, c) == [""] + rest;
        assert ([""] + rest)[1..] == rest;
      } else {
        var r := [[s[0]] + rest[0]] + rest[1..];
        assert Split(s, c) == r;
        if |rest| == 1 {
          assert Join([c], rest) == rest[0];
        } else {
          assert r[1..] == rest[1..];
          assert Join([c], rest) == rest[0] + [c] + Join([c], rest[1..]);
        }
      }
    }
  }

  /** Splitting undoes joining when no part holds the separator. */
  lemma {:induction false} SplitJoin(parts: seq<string>, c: char)
    requires |parts| > 0
    requires forall k :: 0 <= k < |parts| ==> c !in parts[k]
    ensures Split(Join([c], parts), c) == parts
    decreases |parts|
  {
    if |parts| == 1 {
      SplitSeparatorFree(parts[0], "", c);
      assert parts[0] + "" == parts[0];
    } else {
      var tail := Join([c], parts[1..]);
      SplitJoin(parts[1..], c);
      assert Join([c], parts) == parts[0] + ([c] + tail);
      SplitSeparatorFree(parts[0], [c] + tail, c);
      assert ([c] + tail)[1..] == tail;
      assert Split([c] + tail, c) == [""] + parts[1..];
      assert parts[0] + "" == parts[0];
    }
  }

  /** `sub` occurs in `s` starting at index `i`. */
  predicate OccursAt(s: string, sub: string, i: nat)
  {
    i + |sub| <= |s| && s[i..i + |sub|] == sub
  }

  /** `sub in s` */
  predicate Contains(s: string, sub: string)
    ensures sub <= s ==> Contains(s, sub)
    ensures Contains(s, sub) ==> |sub| <= |s|
    decreases |s|
  {
    sub <= s || (|s| > 0 && Contains(s[1..], sub))
  }

  /** `sub` is a prefix of `s` exactly when it occurs at index 0. */
  lemma PrefixIsOccurrenceAtZero(s: string, sub: string)
    ensures sub <= s <==> OccursAt(s, sub, 0)
  {
    if OccursAt(s, sub, 0) {
      assert s[..|sub|] == sub;
    }
  }

  /** An occurrence in `t` is an occurrence in `pre + t`, shifted by `|pre|`. */
  lemma OccursAfterPrefix(pre: string, t: string, sub: string, i: nat)
    requires OccursAt(t, sub, i)
    ensures OccursAt(pre + t, sub, |pre| + i)
  {
    assert (pre + t)[|pre|..] == t;
    OccursAfterDrop(pre + t, sub, |pre|, i);
  }

  /** An occurrence in `s[d..]` is an occurrence in `s`, `d` places further on. */
  lemma OccursAfterDrop(s: string, sub: string, d: nat, i: nat)
    requires d <= |s|
    ensures OccursAt(s[d..], sub, i) <==> OccursAt(s, sub, i + d)
  {
    if i + d + |sub| <= |s| {
      assert s[d..][i..i + |sub|] == s[i + d..i + d + |sub|];
    }
  }

  /** Where `sub in s` holds, `sub` occurs at some index of `s`. */
  lemma {:induction false} ContainsOccurrence(s: string, sub: string) returns (i: nat)
    requires Contains(s, sub)
    ensures OccursAt(s, sub, i)
    decreases |s|
  {
    PrefixIsOccurrenceAtZero(s, sub);
    if sub <= s {
      i := 0;
    } else {
      var j := ContainsOccurrence(s[1..], sub);
      OccursAfterDrop(s, sub, 1, j);
      i := j + 1;
    }
  }

  /** An occurrence at any index makes `sub in s` hold. */
  lemma {:induction false} OccurrenceContains(s: string, sub: string, i: nat)
    requires OccursAt(s, sub, i)
    ensures Contains(s, sub)
    decreases i
  {
    PrefixIsOccurrenceAtZero(s, sub);
    if i > 0 {
      OccursAfterDrop(s, sub, 1, i - 1);
      OccurrenceContains(s[1..], sub, i - 1);
    }
  }

  /** `Contains` holds exactly when `sub` occurs at some index of `s`. */
  lemma ContainsIffOccurs(s: string, sub: string)
    ensures Contains(s, sub) <==> exists i: nat :: OccursAt(s, sub, i)
  {
    if Contains(s, sub) {
      var i := ContainsOccurrence(s, sub);
    }
    if exists i: nat :: OccursAt(s, sub, i) {
      var i: nat :| OccursAt(s, sub, i);
      OccurrenceContains(s, sub, i);
    }
  }

  /** The empty string is in every string. */
  lemma ContainsEmpty(s: string)
    ensures Contains(s, "")
  {
  }

  /** A string shorter than `sub` cannot contain it. */
  lemma {:induction false} ShortDoesNotContain(s: string, sub: string)
    requires |s| < |sub|
    ensures !Contains(s, sub)
    decreases |s|
  {
    if |s| > 0 {
      ShortDoesNotContain(s[1..], sub);
    }
  }

  lemma MulSucc(m: nat, k: nat)
    ensures (1 + m) * k == k + m * k
  {
  }

  /** `ps` lists positions at which `sub` occurs in `s`, left to right, each
      occurrence ending before the next one starts. */
  predicate NonOverlapping(s: string, sub: string, ps: seq<nat>)
  {
    && (forall k :: 0 <= k < |ps| ==> OccursAt(s, sub, ps[k]))
    && (forall i, j :: 0 <= i < j < |ps| ==> ps[i] + |sub| <= ps[j])
  }

  /** Every position moved `d` places on. */
  function Offset(ps: seq<nat>, d: nat): (r: seq<nat>)
    ensures |r| == |ps|
    ensures forall k :: 0 <= k < |r| ==> r[k] == ps[k] + d
  {
    seq(|ps|, k requires 0 <= k < |ps| => ps[k] + d)
  }

  /** Every position moved `d` places back. */
  function Unoffset(ps: seq<nat>, d: nat): (r: seq<nat>)
    requires forall k :: 0 <= k < |ps| ==> d <= ps[k]
    ensures Offset(r, d) == ps
  {
    seq(|ps|, k requires 0 <= k < |ps| => ps[k] - d)
  }

  /** Non-overlapping occurrences in `s[d..]` are non-overlapping occurrences
      in `s`, `d` places further on. */
  lemma NonOverlappingDrop(s: string, sub: string, d: nat, ps: seq<nat>)
    requires d <= |s|
    ensures NonOverlapping(s[d..], sub, ps) <==> NonOverlapping(s, sub, Offset(ps, d))
  {
    forall k | 0 <= k < |ps|
      ensures OccursAt(s[d..], sub, ps[k]) <==> OccursAt(s, sub, Offset(ps, d)[k])
    {
      OccursAfterDrop(s, sub, d, ps[k]);
    }
  }

  /** The positions `s.count(sub)` counts, for a non-empty `sub`: the leftmost
      occurrence, then the leftmost one starting after it ends, and so on. */
  function Occurrences(s: string, sub: string): (ps: seq<nat>)
    requires |sub| > 0
    ensures NonOverlapping(s, sub, ps)
    decreases |s|
  {
    if |s| < |sub| then []
    else if sub <= s then
      var rest := Occurrences(s[|sub|..], sub);
      NonOverlappingDrop(s, sub, |sub|, rest);
      PrefixIsOccurrenceAtZero(s, sub);
      [0] + Offset(rest, |sub|)
    else
      var rest := Occurrences(s[1..], sub);
      NonOverlappingDrop(s, sub, 1, rest);
      Offset(rest, 1)
  }

  /** `s.count(sub)`: occurrences of `sub` taken greedily from the left without
      overlap; the empty `sub` counts `|s| + 1` times, as Python does. For a
      non-empty `sub` the count is the number of positions `Occurrences`
      lists, and `CountIsMaximal` shows no non-overlapping choice has more. */
  function CountOccurrences(s: string, sub: string): (n: nat)
    ensures |sub| == 0 ==> n == |s| + 1
    ensures |sub| > 0 ==> n == |Occurrences(s, sub)| && NonOverlapping(s, sub, Occurrences(s, sub))
    ensures |sub| > 0 ==> n * |sub| <= |s|
    ensures |sub| > 0 ==> (n > 0 <==> Contains(s, sub))
    decreases |s|
  {
    if |sub| == 0 then |s| + 1
    else if |s| < |sub| then
      ShortDoesNotContain(s, sub);
      0
    else if sub <= s then
      var m := CountOccurrences(s[|sub|..], sub);
      MulSucc(m, |sub|);
      1 + m
    else
      CountOccurrences(s[1..], sub)
  }

  /** No list of non-overlapping occurrences is longer than the count: taking
      the leftmost occurrence first never loses one. */
  lemma {:induction false} CountIsMaximal(s: string, sub: string, ps: seq<nat>)
    requires |sub| > 0 && NonOverlapping(s, sub, ps)
    ensures |ps| <= CountOccurrences(s, sub)
    decreases |s|
  {
    if |ps| > 0 {
      assert OccursAt(s, sub, ps[0]);
      PrefixIsOccurrenceAtZero(s, sub);
      var tail := ps[1..];
      assert forall k :: 0 <= k < |tail| ==> tail[k] == ps[k + 1];
      if sub <= s {
        var rest := Unoffset(tail, |sub|);
        NonOverlappingDrop(s, sub, |sub|, rest);
        CountIsMaximal(s[|sub|..], sub, rest);
      } else {
        var rest := Unoffset(ps, 1);
        NonOverlappingDrop(s, sub, 1, rest);
        CountIsMaximal(s[1..], sub, rest);
      }
    }
  }

  /** `"0123456789"[d]` */
  function DigitChar(d: nat): (c: char)
    requires d < 10
    ensures '0' <= c <= '9' && c as int - '0' as int == d
  {
    (d + '0' as int) as char
  }

  predicate IsDigits(s: string)
  {
    forall i :: 0 <= i < |s| ==> '0' <= s[i] <= '9'
  }

  /** `str(n)` for a non-negative integer: decimal digits, no leading zero. */
  function NatToString(n: nat): (r: string)
    ensures |r| > 0 && IsDigits(r)
    ensures |r| > 1 ==> r[0] != '0'
    decreases n
  {
    if n < 10 then [DigitChar(n)] else NatToString(n / 10) + [DigitChar(n % 10)]
  }

  /** `int(s)` for a string of decimal digits. */
  function ParseDecimal(s: string): nat
    requires IsDigits(s)
    decreases |s|
  {
    if |s| == 0 then 0
    else 10 * ParseDecimal(s[..|s| - 1]) + (s[|s| - 1] as int - '0' as int)
  }

  /** Reading back a rendered count gives the count. */
  lemma {:induction false} ParseNatToString(n: nat)
    ensures ParseDecimal(NatToString(n)) == n
    decreases n
  {
    if n >= 10 {
      var r := NatToString(n);
      ParseNatToString(n / 10);
      assert r[..|r| - 1] == NatToString(n / 10);
    }
  }

  /** `c * n` for a one-character string `c`. */
  function Repeat(c: char, n: nat): (r: string)
    ensures |r| == n
    ensures forall i :: 0 <= i < n ==> r[i] == c
    decreases n
  {
    if n == 0 then "" else [c] + Repeat(c, n - 1)
  }
}

=== FILE: tokens.dfy ===
/** The parsed document the core reads: the tokens the dependency parser
    produces for one text, each with its surface text, the alphabetic and
    stopword flags, its dependency label and the index of its syntactic head. */
module Tokens {
  import opened Seqs

  /** The dependency labels the core distinguishes; every other label is `OtherDep`. */
  datatype Dep = Root | NSubj | NSubjPass | DObj | PObj | Attr | OtherDep

  datatype Token = Token(text: string, isAlpha: bool, isStop: bool, dep: Dep, head: nat)

  type Doc = seq<Token>

  /** The tokens in `[lo, hi)` whose head is `h`, in index order. */
  function ChildrenIn(doc: Doc, h: nat, lo: nat, hi: nat): (r: seq<nat>)
    requires lo <= hi <= |doc|
    ensures Ascending(r)
    ensures forall k :: 0 <= k < |r| ==> lo <= r[k] < hi && doc[r[k]].head == h
    ensures forall j :: lo <= j < hi && doc[j].head == h ==> j in r
    decreases hi - lo
  {
    if lo == hi then []
    else
      var rest := ChildrenIn(doc, h, lo + 1, hi);
      if doc[lo].head == h then [lo] + rest else rest
  }

  /** `doc[i].lefts`: the children of token `i` that stand before it, in order. */
  function Lefts(doc: Doc, i: nat): (r: seq<nat>)
    requires i < |doc|
    ensures Ascending(r)
    ensures forall k :: 0 <= k < |r| ==> r[k] < i && doc[r[k]].head == i
    ensures forall j :: 0 <= j < i && doc[j].head == i ==> j in r
  {
    ChildrenIn(doc, i, 0, i)
  }

  /** `doc[i].rights`: the children of token `i` that stand after it, in order. */
  function Rights(doc: Doc, i: nat): (r: seq<nat>)
    requires i < |doc|
    ensures Ascending(r)
    ensures forall k :: 0 <= k < |r| ==> i < r[k] < |doc| && doc[r[k]].head == i
    ensures forall j :: i < j < |doc| && doc[j].head == i ==> j in r
  {
    ChildrenIn(doc, i, i + 1, |doc|)
  }
}
